=== FILE: README.md ===
# go-bulk-dns-resolver, modelled in Dafny

go-bulk-dns-resolver reads domain names or IP addresses from standard input, one per line. It resolves them with a pool of concurrent workers and prints one line per input: a label and the addresses found, separated by spaces. This project models its core:

- **Input cleaning** (`LineCleaning`, `main.go`). The regular expression `domainCleanerRe` is written out as the walk the matcher performs. A line is reduced to its domain by dropping an optional `digits,` prefix and anything from the first `/`. It is also reduced to a "cleaned line" that keeps the prefix.
- **One resolution** (`Resolver`, `main.go` `resolve`). The recursive retry on a failed lookup is capped at `MAX_ATTEMPTS` = 3, and every call sends exactly one `Result`. The lookup is an oracle `nat -> LookupOutcome` that gives the outcome of attempt number n. The race against the five-second timer is part of that outcome.
- **The collector** (`Receiver`, `main.go` `receiver`). It prints what each result produces and marks `resultMap`. Its break condition is modelled as written and also in a corrected form.
- **The run** (`Pipeline`, `main.go` `main`). It fills `resultMap` with a loop, the workers resolve each line once, and the results arrive in an arbitrary order, given as a permutation of the input positions. The run then ends with the collector as written, which is left waiting when there are no input lines; the corrected collector `ReceiveCounted` is proved on its own.
- **The server ring** (`ServerRing`, `dnsserverring.go` and `main.go` `next`). `DnsServerRing` is a class with the fields `index` and `servers`:
  - `Next` advances the cursor round the ring;
  - `Test` prunes the servers that fail a probe of `google.com`;
  - `Resolve` moves on to the next server after every "i/o timeout" error, without limit.

  The outcome of each exchange is supplied by the caller. The exchanges sent are returned as `Query` values.
- **Answer parsing** (`Answer`, `answer.go` `ParseResponse`). This covers the three regular expressions:
  - `answerBlockRe` finds the answer block;
  - `answerDomainExtractorRe` extracts the first record's owner name;
  - `answerIpExtractorRe` extracts an A record's last field.

  Addresses are collected with a loop that appends to a slice. The example response in `test.go` is proved to parse into its two addresses.
- **Slices and input reading** (`Slices`, `utils.go`). The hand-written `Append` works on a Go slice modelled as a backing `array` plus a length. A reallocation grows the capacity to `total*3/2+1`, and otherwise the slice is written in place. `readLinesFromStdin`'s filtering loop is modelled over the sequence of lines the reader returns.
- `Text` holds `strings.Split`, `strings.Join` and `strings.Contains`, and `Wrappers` holds `Option`.

Where the code departs from what it evidently intends, the model follows the code:

- With `-p`, the label is the *cleaned* line (`$1$2`), not the raw input line. `Result.originalLine` is assigned the cleaned line.
- The "failed ::" notice tests `err` from `main`'s own scope, which is the option-parsing error, not the result's error. `main` returns as soon as that error is set (main.go:199-202), and nothing assigns it afterwards, so the notice branch is unreachable: every result, a failed lookup included, prints only its result line. `Receiver` keeps the branch as written (`outerErr`); `RunPipeline` runs it with `outerErr` false.
- `resolve` does not rotate servers. It retries only a lookup that returned an error, and a timeout is never retried. `DnsServerRing.Resolve` retries timeouts without any cap, and it returns a response with a non-success Rcode after only a warning.
- An answer header followed by text on its own line but no record line leaves `answers` empty. `answers[0]` then panics in Go; the model returns `Err(AnswerIndexOutOfRange)` instead.
- The owner-name extractor agrees with "the text before the first `.` that a space or tab follows" whenever that text is non-empty and contains no `..` (`OwnerNameParsed`'s `|g| > 0` and `DotSafe`). Otherwise it can differ: `a..<tab>x` is left unchanged instead of giving `a.`, and `.<tab>x` is left unchanged instead of giving the empty text (`OwnerNameDiverges`). A regular expression that does not match leaves its input unchanged, and the model does the same.
- With empty input the run does not finish: see Findings. `RunPipeline` runs the receiver as written, so it reports that the receiver never breaks on empty input; the corrected receiver, `ReceiveCounted`, is stated and proved on its own.
- Go errors that come back as `("", []string{}, err)` are modelled as `Err(…)` tags. Their message texts are not modelled.

## Model

| member | source | states |
|---|---|---|
| Text.Split | answer.go:21 | splitting on a separator gives at least one part, and no part contains the separator |
| Text.ContainsMiddle | answer.go:28 | `Contains` is `strings.Contains`, an occurrence of `t` at some offset of `s`; any text with `t` somewhere in it contains `t` |
| Text.JoinSplit | answer.go:21 | joining the parts of a split with the separator gives back the original text |
| Text.SplitJoin | main.go:251-253 | splitting a join of separator-free parts (at least one) gives back exactly those parts |
| Text.SplitCount | answer.go:21 | the number of parts is one more than the number of separators in the text |
| Text.Join | main.go:251-253 | `strings.Join(addresses, " ")`: no parts give the empty text, one part gives itself, and more parts start with the first part and the separator |
| Slices.GrowCapacity | utils.go:14-17 | the new capacity is `total + total/2 + 1`, which is always more than `total` |
| Slices.EmptySlice | utils.go:28 | `[]string{}` is a fresh slice with no contents and no capacity |
| Slices.CopyInto | utils.go:18-22 | `copy` writes the source at the offset and leaves every other cell unchanged |
| Slices.Append | utils.go:11-24 | the result holds the old contents followed by the new elements. Past capacity, a fresh array of `GrowCapacity(total)` cells is used and the old one is untouched. Otherwise the same array is written in place from `len` on |
| Slices.Kept | utils.go:26-42 | the lines kept are no more than the raw lines read, and none is empty |
| Slices.KeptAppend | utils.go:29-40 | reading two stretches of input one after the other keeps each stretch's lines, in order |
| Slices.KeptMembership | utils.go:36-39 | a string is among the lines read iff it is non-empty and the callback produced it from some raw line |
| Slices.ReadLines | utils.go:26-42 | the loop that calls `Append` returns exactly `Kept(input, fn)` |
| ServerRing.QueryFor | dnsserverring.go:34-41 | the question `domain.` (the domain and one `.`) sent to `server:53` (the server followed by `:53`), as both `Test` and `Resolve` build it (also dnsserverring.go:60-65) |
| ServerRing.Advance | dnsserverring.go:22-29 | one step of the cursor stays inside the ring: 0 from a negative cursor, otherwise `(index + 1) mod n` |
| ServerRing.Position | dnsserverring.go:22-29 | after at least one step the cursor is a valid position |
| ServerRing.RoundRobin | main.go:86-93 | the k-th call hands out position `(k - 1) mod n` from the initial cursor -1, and `(start + k) mod n` from a cursor inside the ring |
| ServerRing.Fairness | main.go:86-93 | over k calls from cursor -1, position p is handed out `k / n` times, plus one when `p < k mod n` |
| ServerRing.DnsServerRing.constructor | main.go:45-69 | the ring holds the given cursor and server list |
| ServerRing.DnsServerRing.Next | dnsserverring.go:22-29 | the cursor advances by `Advance`, the server at the new cursor is returned, and the list is unchanged |
| ServerRing.Survivors | dnsserverring.go:40-50 | the indices of the servers that answered, strictly increasing, each of them and only them |
| ServerRing.WorkingAt | dnsserverring.go:39-51 | the pruned list is the old list read at the surviving indices, in order |
| ServerRing.Working | dnsserverring.go:39-51 | the servers whose probe returned no error, in ring order: no more than the list held, each one taken from it |
| ServerRing.DnsServerRing.Test | dnsserverring.go:31-56 | it sends one probe per server, in ring order, asking `google.com.` at `server:53` (`ProbeQueries` of the old list). It replaces the list with the servers that answered and fails iff none did; the cursor is untouched |
| ServerRing.IsTimeout | dnsserverring.go:67 | the retry test `err != nil && strings.Contains(err.Error(), IO_TIMEOUT_ERROR_MESSAGE)`: only an exchange error whose text is at least as long as "i/o timeout" can pass it |
| ServerRing.TimeoutMessage | dnsserverring.go:67 | any error text with "i/o timeout" anywhere in it is retried, and a reply never is |
| ServerRing.FirstSettled | dnsserverring.go:65-70 | the first outcome that is not an "i/o timeout" error; every earlier one is |
| ServerRing.Exchanges | dnsserverring.go:58-77 | the number of exchanges: up to and including the first one that did not time out. It is never more than the outcomes supplied, and zero only when none is supplied |
| ServerRing.Resolution | dnsserverring.go:58-77 | what `Resolve` returns. A failure never carries an "i/o timeout" error, because those are retried, and with no outcome supplied it is unfinished |
| ServerRing.ResolutionCases | dnsserverring.go:58-77 | it is unfinished iff every exchange timed out. Otherwise it ends at the first exchange that did not time out: a response is returned whatever its Rcode, and any other error fails |
| ServerRing.DnsServerRing.Resolve | dnsserverring.go:58-77 | the outcome is `Resolution(outcomes)`. Exchange j goes to the server at cursor step j + 1, and the cursor ends after as many steps as exchanges |
| LineCleaning.DigitRun | main.go:40 | the leading run of decimal digits: all digits, and followed by a non-digit or the end |
| LineCleaning.PrefixLen | main.go:40 | the length of group 1, `[0-9]+,`: 0, or one or more digits followed by a comma. A line that starts with digits and a comma always has that prefix taken |
| LineCleaning.NewlineFreeMatches | main.go:40 | `Matches`: the pattern matches the whole line unless a newline follows its first `/`, so it always matches a newline-free line |
| LineCleaning.Domain | main.go:96 | `$2`: on a matching line, the text after the prefix up to the first `/`, holding no `/`. A line the pattern does not match is returned unchanged |
| LineCleaning.CleanLine | main.go:98 | `$1$2`: always a prefix of the line, and free of `/` when the pattern matches |
| LineCleaning.FirstSlash | main.go:40 | the first `/` of the line, or its length when it has none |
| LineCleaning.CleaningShape | main.go:96-98 | on a newline-free line, the cleaned line is the prefix followed by the domain, and it is the line up to its first `/`; neither result contains `/` |
| LineCleaning.CleanLineIdempotent | main.go:96-98 | cleaning a cleaned line changes nothing, and the cleaned line has the same domain as the raw line |
| LineCleaning.CleaningOfUrlLine | main.go:96-98 | `digits,name/tail` and `digits,name` give domain `name` and cleaned line `digits,name` |
| LineCleaning.CleaningExample | main.go:96-98 | `42,sub.example.com/path?x=1` gives `sub.example.com` and `42,sub.example.com`; `1,google.com` gives `google.com` |
| Resolver.SendsOnce | main.go:95-126 | every call sends exactly one result, and it carries the line's domain and cleaned line |
| Resolver.ResolveFrom | main.go:95-126 | `resolve(line, attemptNumber)` with its recursion: every call sends exactly one result and starts at least one lookup |
| Resolver.RetryCap | main.go:113-121 | a call makes between 1 and `MAX_ATTEMPTS - a + 1` lookups. Every lookup but the last failed, a timeout ends the call, and a failed last lookup happens only at attempt `MAX_ATTEMPTS` |
| Resolver.ResultError | main.go:113-125 | the result's error and addresses reflect how its last lookup ended: a timeout gives no addresses, a failure at the cap is a lookup error, and a success gives no error |
| Resolver.Resolve | main.go:95-126 | the loop that replaces the recursion sends the same result and makes the same number of lookups as `resolve(line, 1)`, at most `MAX_ATTEMPTS` |
| Receiver.FormatLineSplits | main.go:244-254 | a printed result line splits on spaces into its label and its addresses (a single empty field when there are none) |
| Receiver.Label | main.go:244-252 | the label of a result line: the cleaned line with `-p`, the domain otherwise |
| Receiver.FormatLine | main.go:244-252 | the result line starts with the label and a space, followed by the addresses joined by spaces |
| Receiver.Emit | main.go:242-255 | the result line of one result, last, preceded by the notice only when `outerErr` is set |
| Receiver.EmitAll | main.go:242-255 | one output line per result. With `outerErr` set there would be two; that branch is unreachable in a run (main.go:199-202) |
| Receiver.EmitAllLines | main.go:239-257 | the j-th result's line is at the j-th arrival position. In the unreachable `outerErr` branch it would sit at `2j + 1`, after its notice |
| Receiver.OutputIgnoresResultErrors | main.go:242-255 | what is printed does not depend on the results' own errors |
| Receiver.MarkAllMarks | main.go:256 | every consumed result's domain is marked done; every other key keeps its value, and no other key is added |
| Receiver.MarkAll | main.go:256 | `resultMap` after the results consumed: marking adds keys and never removes one |
| Receiver.BreakPointCases | main.go:257-260 | the loop breaks iff `1 <= numDomains <= results`, and then right after result `numDomains` |
| Receiver.BreakPoint | main.go:257-260 | when the loop as written breaks, it is right after result `numDomains`, with `1 <= numDomains <=` the results that arrived |
| Receiver.ZeroDomainsNeverBreak | main.go:257-260 | with `numDomains = 0` the loop never breaks, however many results arrive |
| Receiver.Receive | main.go:232-269 | the loop as written: it stops as `BreakPoint` says, prints `EmitAll` of what it consumed, and marks those results |
| Receiver.ReceiveCounted | main.go:232-269 | the corrected loop stops iff `numDomains` results arrive (zero included) and consumes exactly that many |
| Pipeline.Sent | main.go:95-126 | the one result sent for a line, with its domain and cleaned line |
| Pipeline.Arrived | main.go:176-185 | one result per input line, in arrival order, each for the line that finished there |
| Pipeline.BuildPending | main.go:216-219 | the loop gives `PendingMap` of the input lines: its keys are exactly the input lines, and every one of them is pending (false) |
| Pipeline.Dispatch | main.go:180-183 | each line is resolved once, in dispatch order |
| Pipeline.Deliver | main.go:239 | the channel hands over those results in arrival order |
| Pipeline.MarksEveryDomain | main.go:256 | once every result is received, each input line's domain is marked done |
| Pipeline.MarkedKeys | main.go:216-219 | at the end the map's keys are the input lines and their domains, and nothing else |
| Pipeline.RunPipeline | main.go:212-283 | the receiver as written breaks iff there is at least one input line, and otherwise is left waiting. The run prints exactly one result line per input, in arrival order, with no notice since `err` is nil once `main` gets past option parsing. Every line's domain is marked done |
| Answer.BodyEnd | answer.go:10 | the body walk stops at the first blank line or at the end of the text |
| Answer.BlockAtIff | answer.go:10 | a block starts at i iff the header is there and is followed by a character that does not begin a blank line |
| Answer.FindBlock | answer.go:16 | the leftmost block at or after `from`, or none when there is no block |
| Answer.AnswerLines | answer.go:16-21 | none exactly when no answer block is found; otherwise the block's lines after the header, none holding a newline |
| Answer.OwnerWalk | answer.go:11 | the owner-name group ends at the end of the text or at a `.` followed by a space, a tab or the end |
| Answer.ParsedDomain | answer.go:22 | `$1` of the owner-name pattern: always a prefix of the line. When it differs from the line, it is non-empty and followed by `.`, a space or tab, and a newline-free rest |
| Answer.OwnerNameDiverges | answer.go:11 | the record `a..<tab>x` is left unchanged rather than giving `a.`, and `.<tab>x` is left unchanged rather than giving the empty text |
| Answer.OwnerNameParsed | answer.go:22 | for a record `name.<tab or space>rest` whose name has no `..`, the parsed domain is the name |
| Answer.LastBlank | answer.go:12 | the last space or tab, or none |
| Answer.LastField | answer.go:29 | `$1` of the address pattern: the line unchanged, or its non-empty last field after a space or tab, holding no space or tab |
| Answer.LastFieldOf | answer.go:29 | the extracted address is the field after the last space or tab of a newline-free record |
| Answer.Addresses | answer.go:26-31 | at most one address per record line |
| Answer.AddressesAppend | answer.go:26-31 | the addresses of two runs of lines are those of each run, in order |
| Answer.AddressesOfOne | answer.go:27-31 | a line that is not an A record (a CNAME, say) contributes nothing; an A record contributes its last field |
| Answer.Parse | answer.go:15-33 | what `ParseResponse` returns: "no answers" exactly when no block is found. Success keeps the queried domain, and a mismatch carries a parsed domain that differs from it |
| Answer.ParseCases | answer.go:15-33 | "no answers" iff no header is followed by a character that does not begin a blank line. Otherwise the domain is mismatched iff the first record's owner differs, and success returns the queried domain with the addresses of the A records |
| Answer.IndexOutOfRangeCase | answer.go:21-22 | the block found has no record line, so `answers[0]` is out of range, iff it holds no newline |
| Answer.SectionLines | answer.go:16-21 | for text in which no header starts (the `;;` lines of a response before the answer section included), then the header, then record lines, then the end or a blank line, the records found are exactly those lines |
| Answer.NotARecord | answer.go:28 | `IsARecord` is `strings.Contains(answer, "\tA\t")`, a tab, `A` and a tab in a row; a line in which no `A` follows a tab is not an A record |
| Answer.ParseExample | test.go:10-17 | the example response queried for `www.hotmail.com` parses to that domain with `65.55.143.16` and `65.55.143.17` |
| Answer.ParseResponse | answer.go:15-33 | the method that collects addresses with `Append` returns exactly `Parse(domain, message)` |

## Left out

- The network: the unbound lookups (`LookupHost`, and `LookupAddr` chosen by `net.ParseIP`) and the DNS exchanges. Each one becomes an outcome supplied by the caller.
- The five-second timer race: a timeout is an outcome of the attempt. The timed-out result's addresses are taken as empty, whereas in Go the still-running lookup goroutine can write them, which is a data race.
- Concurrency: the worker goroutines, the bounded channels, the `WaitGroup`, `outputLock` and the unserialized ring cursor. Worker scheduling is represented only by the arrival order of results.
- `printf` output and diagnostics: the "rtt", "failed", "info" and "warning" lines, and the texts of error messages. Printed output is modelled as `Output` values.
- `getopt` option parsing: `-p` becomes the `preserveInput` parameter. A parsing error makes `main` return before any input is read, so `RunPipeline` is the run with no such error.
- `bufio.Reader.ReadLine`: the reader's lines are given as a sequence. The splitting of over-long lines into prefixes and the panic on a read error are not modelled.
- `strings.TrimSpace` is the callback `fn` passed to `readLinesFromStdin`, and is not itself modelled.
- `resolveOldWay` is commented out in the source and is not modelled. `test.go` serves only as the worked example.
- The contents of the server list are not modelled (the constructor takes any list). Neither are `init`'s reading of `/etc/resolv.conf` and the DNS message type `dns.TypeA&dns.TypeCNAME`.
- ServerRing.DnsServerRing.Next: requires `index < len(servers)` and a non-empty list, because otherwise Go's `this.servers[this.index]` panics. `Test` can leave the cursor past the pruned list; this is not modelled further.
- Answer.ParseResponse: the Go panic on `answers[0]` is modelled as the `AnswerIndexOutOfRange` error rather than as an abort.

## Findings

| source | as written | input that shows it | evidently intended | confidence | as-written member | corrected member |
|---|---|---|---|---|---|---|
| main.go:257-260 | the receiver increments its count after taking a result and breaks only when the count equals `numDomains`, so with `numDomains = 0` it never breaks, `wg.Wait()` in `main` does not return, and the run does not finish | empty standard input: no line is read, no result arrives, the receiver stays waiting on the channel, and the run does not finish | the run finishes with no output when there are no input lines | high; not executed | Receiver.ZeroDomainsNeverBreak | Receiver.ReceiveCounted |

=== FILE: answer.dfy ===
/**
 * answer.go: `ParseResponse(domain, message)` over the text form of a DNS
 * response. The three regular expressions are written out as the walks a
 * leftmost-first matcher performs:
 *   answerBlockRe            `;; ANSWER SECTION:(?:[^\n]|\n[^\n])+`
 *   answerDomainExtractorRe  `^((?:[^\.]|\.[^ \t])+)\.[ \t].*$`, replaced by `$1`
 *   answerIpExtractorRe      `^.*[ \t]([^ \t]+)$`, replaced by `$1`
 * A replacement whose pattern does not match returns its input unchanged.
 */
module Answer {
  import opened Wrappers
  import opened Text
  import opened Slices

  const Header := ";; ANSWER SECTION:"

  /** A blank line begins at `j`: a newline that ends the text or is followed by another one. */
  predicate BlankAt(m: string, j: nat) {
    j < |m| && m[j] == '\n' && (j + 1 == |m| || m[j + 1] == '\n')
  }

  /**
   * The end of the block body walked from `p`: each step takes a character
   * other than a newline, or a newline with the non-newline after it. The
   * walk stops at the first blank line or at the end of the text.
   */
  function BodyEnd(m: string, p: nat): (e: nat)
    requires p <= |m|
    ensures p <= e <= |m|
    ensures e == |m| || BlankAt(m, e)
    ensures forall j :: p <= j < e ==> !BlankAt(m, j)
    decreases |m| - p
  {
    if p == |m| then p
    else if m[p] != '\n' then BodyEnd(m, p + 1)
    else if p + 1 < |m| && m[p + 1] != '\n' then BodyEnd(m, p + 2)
    else p
  }

  predicate HeaderAt(m: string, i: nat) {
    OccursAt(m, Header, i)
  }

  /** `answerBlockRe` matches at `i`: the header, then at least one step of the body walk. */
  predicate BlockAt(m: string, i: nat) {
    HeaderAt(m, i) && BodyEnd(m, i + |Header|) > i + |Header|
  }

  /** A block starts at `i` exactly when the header there is followed by a character that does not begin a blank line. */
  lemma BlockAtIff(m: string, i: nat)
    ensures BlockAt(m, i) <==> HeaderAt(m, i) && i + |Header| < |m| && !BlankAt(m, i + |Header|)
  {
  }

  /** The leftmost match of `answerBlockRe` at or after `from`: its start and end. */
  function FindBlock(m: string, from: nat): (r: Option<(nat, nat)>)
    ensures r.Some? ==>
      var (i, e) := r.value;
      from <= i && BlockAt(m, i) && e == BodyEnd(m, i + |Header|) &&
      forall k :: from <= k < i ==> !BlockAt(m, k)
    ensures r.None? ==> forall k :: from <= k ==> !BlockAt(m, k)
    decreases |m| - from
  {
    if from + |Header| > |m| then None
    else if BlockAt(m, from) then Some((from, BodyEnd(m, from + |Header|)))
    else FindBlock(m, from + 1)
  }

  /** The record lines: the matched block split on newlines, header line dropped. */
  function AnswerLines(message: string): (r: Option<seq<string>>)
    ensures r.None? <==> FindBlock(message, 0).None?
    ensures r.Some? ==> forall j :: 0 <= j < |r.value| ==> '\n' !in r.value[j]
  {
    match FindBlock(message, 0)
    case None => None
    case Some((i, e)) => Some(Split(message[i..e], '\n')[1..])
  }

  /**
   * The end of the owner-name group walked from `p`: each step takes a
   * character other than '.', or a '.' with a following character that is
   * not a space or tab.
   */
  function OwnerWalk(s: string, p: nat): (e: nat)
    requires p <= |s|
    ensures p <= e <= |s|
    ensures e < |s| ==> s[e] == '.' && (e + 1 == |s| || IsBlank(s[e + 1]))
    decreases |s| - p
  {
    if p == |s| then p
    else if s[p] != '.' then OwnerWalk(s, p + 1)
    else if p + 1 < |s| && s[p + 1] != ' ' && s[p + 1] != '\t' then OwnerWalk(s, p + 2)
    else p
  }

  predicate IsBlank(c: char) {
    c == ' ' || c == '\t'
  }

  /** `answerDomainExtractorRe.ReplaceAllString(line, "$1")`. */
  function ParsedDomain(line: string): (d: string)
    ensures d <= line
    ensures d != line ==> 0 < |d| && |d| + 1 < |line| && line[|d|] == '.' && IsBlank(line[|d| + 1]) && '\n' !in line[|d| + 2..]
  {
    var e := OwnerWalk(line, 0);
    if 0 < e && e + 1 < |line| && line[e] == '.' && IsBlank(line[e + 1]) && '\n' !in line[e + 2..]
    then line[..e]
    else line
  }

  /** A name in which every '.' is followed by a character that is neither '.', a space nor a tab. */
  predicate DotSafe(g: string) {
    forall j :: 0 <= j < |g| && g[j] == '.' ==> j + 1 < |g| && g[j + 1] != '.' && !IsBlank(g[j + 1])
  }

  lemma {:induction false} OwnerWalkOver(s: string, p: nat, g: string)
    requires p + |g| <= |s| && s[p..p + |g|] == g && DotSafe(g)
    ensures OwnerWalk(s, p) == OwnerWalk(s, p + |g|)
    decreases |g|
  {
    if |g| > 0 {
      if g[0] != '.' {
        assert DotSafe(g[1..]) by {
          forall j | 0 <= j < |g[1..]| && g[1..][j] == '.'
            ensures j + 1 < |g[1..]| && g[1..][j + 1] != '.' && !IsBlank(g[1..][j + 1])
          {
            assert g[j + 1] == '.';
          }
        }
        assert s[p + 1..p + |g|] == g[1..];
        OwnerWalkOver(s, p + 1, g[1..]);
      } else {
        assert s[p] == '.' && s[p + 1] == g[1];
        assert DotSafe(g[2..]) by {
          forall j | 0 <= j < |g[2..]| && g[2..][j] == '.'
            ensures j + 1 < |g[2..]| && g[2..][j + 1] != '.' && !IsBlank(g[2..][j + 1])
          {
            assert g[j + 2] == '.';
          }
        }
        assert s[p + 2..p + |g|] == g[2..];
        OwnerWalkOver(s, p + 2, g[2..]);
      }
    }
  }

  /**
   * For a record line that starts with a name in which every '.' is
   * followed by an ordinary character, then '.', a space or tab and a
   * newline-free rest, the parsed domain is that name: the text before the
   * first '.' that is followed by a space or tab.
   */
  lemma OwnerNameParsed(g: string, sep: char, rest: string)
    requires |g| > 0 && DotSafe(g) && IsBlank(sep) && '\n' !in rest
    ensures ParsedDomain(g + "." + [sep] + rest) == g
  {
    var s := g + "." + [sep] + rest;
    assert s[0..|g|] == g;
    OwnerWalkOver(s, 0, g);
    assert s[|g|] == '.' && s[|g| + 1] == sep;
    assert OwnerWalk(s, |g|) == |g|;
    assert s[|g| + 2..] == rest;
    assert s[..|g|] == g;
  }

  /**
   * Where a `..` occurs before the first '.' that a space or tab follows,
   * the walk can step over that '.': `a..<tab>x` is left unchanged instead
   * of giving `a.`. The owner name also needs at least one character:
   * `.<tab>x` is left unchanged instead of giving the empty name.
   */
  lemma OwnerNameDiverges()
    ensures ParsedDomain("a..\tx") == "a..\tx"
    ensures ParsedDomain(".\tx") == ".\tx"
  {
    var s := "a..\tx";
    assert OwnerWalk(s, 3) == 5;
  }

  /** The index of the last space or tab of `s`, if any. */
  function LastBlank(s: string): (k: Option<nat>)
    ensures k.Some? ==> k.value < |s| && IsBlank(s[k.value]) &&
                        forall j :: k.value < j < |s| ==> !IsBlank(s[j])
    ensures k.None? ==> forall j :: 0 <= j < |s| ==> !IsBlank(s[j])
  {
    if |s| == 0 then None
    else if IsBlank(s[|s| - 1]) then Some(|s| - 1)
    else LastBlank(s[..|s| - 1])
  }

  /** `answerIpExtractorRe.ReplaceAllString(line, "$1")`: the last space- or tab-delimited field. */
  function LastField(line: string): (f: string)
    ensures f == line || (0 < |f| < |line| && f == line[|line| - |f|..] && IsBlank(line[|line| - |f| - 1]) &&
                          forall j :: 0 <= j < |f| ==> !IsBlank(f[j]))
  {
    match LastBlank(line)
    case Some(k) => if k + 1 < |line| && '\n' !in line[..k] then line[k + 1..] else line
    case None => line
  }

  /** The field after the last space or tab is what `LastField` extracts. */
  lemma LastFieldOf(a: string, sep: char, f: string)
    requires IsBlank(sep) && |f| > 0 && '\n' !in a
    requires forall j :: 0 <= j < |f| ==> !IsBlank(f[j])
    ensures LastField(a + [sep] + f) == f
  {
    var s := a + [sep] + f;
    var k := LastBlank(s);
    assert s[|a|] == sep;
    assert k.Some? && k.value == |a| by {
      if k.None? || k.value != |a| {
        assert false;
      }
    }
    assert s[..|a|] == a;
    assert s[|a| + 1..] == f;
  }

  /** An `A` record line, recognised by `strings.Contains(answer, "\tA\t")`. */
  predicate IsARecord(line: string)
  {
    Contains(line, "\tA\t")
  }

  /** The addresses collected from the record lines, in order. */
  function Addresses(answers: seq<string>): (ips: seq<string>)
    ensures |ips| <= |answers|
  {
    if answers == [] then []
    else
      var last := |answers| - 1;
      Addresses(answers[..last]) + (if IsARecord(answers[last]) then [LastField(answers[last])] else [])
  }

  /** Collecting from two runs of lines one after the other keeps each run's addresses, in order. */
  lemma {:induction false} AddressesAppend(a: seq<string>, b: seq<string>)
    ensures Addresses(a + b) == Addresses(a) + Addresses(b)
  {
    if b == [] {
      assert a + b == a;
    } else {
      var b' := b[..|b| - 1];
      AddressesAppend(a, b');
      assert (a + b)[..|a + b| - 1] == a + b';
      assert (a + b)[|a + b| - 1] == b[|b| - 1];
    }
  }

  /** A line that is not an `A` record (a CNAME, say) contributes nothing; an `A` record its last field. */
  lemma AddressesOfOne(line: string)
    ensures Addresses([line]) == if IsARecord(line) then [LastField(line)] else []
  {
    assert [line][..0] == [];
  }

  datatype ParseError = NoAnswersFound | AnswerIndexOutOfRange | DomainMismatch(parsed: string)

  datatype Parsed = Parsed(domain: string, addresses: seq<string>)

  datatype ParseResult = Ok(value: Parsed) | Err(error: ParseError)

  /**
   * What `ParseResponse` returns: no answer block; a block with no record
   * line, where `answers[0]` is out of range; a first record whose owner
   * name is not the queried domain; or the queried domain with the
   * addresses of the `A` records.
   */
  function Parse(domain: string, message: string): (r: ParseResult)
    ensures r == Err(NoAnswersFound) <==> FindBlock(message, 0).None?
    ensures r.Ok? ==> r.value.domain == domain
    ensures r.Err? && r.error.DomainMismatch? ==> r.error.parsed != domain
  {
    match AnswerLines(message)
    case None => Err(NoAnswersFound)
    case Some(answers) =>
      if |answers| == 0 then Err(AnswerIndexOutOfRange)
      else
        var parsedDomain := ParsedDomain(answers[0]);
        if domain != parsedDomain then Err(DomainMismatch(parsedDomain))
        else Ok(Parsed(domain, Addresses(answers)))
  }

  /**
   * The outcomes of parsing: "no answers" exactly when no header is followed
   * by a character that does not begin a blank line; otherwise a mismatch
   * exactly when the first record's owner differs from the query; and on
   * success the queried domain unchanged, with at most one address per
   * record line.
   */
  lemma ParseCases(domain: string, message: string)
    ensures Parse(domain, message) == Err(NoAnswersFound) <==>
            forall i :: 0 <= i ==> !(HeaderAt(message, i) && i + |Header| < |message| && !BlankAt(message, i + |Header|))
    ensures AnswerLines(message).Some? && |AnswerLines(message).value| > 0 ==>
            var answers := AnswerLines(message).value;
            (Parse(domain, message).Err? <==> ParsedDomain(answers[0]) != domain) &&
            (Parse(domain, message).Ok? ==>
               Parse(domain, message).value.domain == domain &&
               Parse(domain, message).value.addresses == Addresses(answers) &&
               |Parse(domain, message).value.addresses| <= |answers|)
  {
    if FindBlock(message, 0).Some? {
      var (i, e) := FindBlock(message, 0).value;
      BlockAtIff(message, i);
    } else {
      forall i | 0 <= i
        ensures !(HeaderAt(message, i) && i + |Header| < |message| && !BlankAt(message, i + |Header|))
      {
        BlockAtIff(message, i);
      }
    }
  }

  /** The block found has no record line exactly when it holds no newline; then `answers[0]` is out of range. */
  lemma IndexOutOfRangeCase(domain: string, message: string)
    requires FindBlock(message, 0).Some?
    ensures var (i, e) := FindBlock(message, 0).value;
      Parse(domain, message) == Err(AnswerIndexOutOfRange) <==> '\n' !in message[i..e]
  {
    var (i, e) := FindBlock(message, 0).value;
    SplitCount(message[i..e], '\n');
  }

  /** The text of record lines as they follow the header: each one after a newline. */
  function Lines(records: seq<string>): string
  {
    if records == [] then "" else "\n" + records[0] + Lines(records[1..])
  }

  lemma {:induction false} LinesJoin(records: seq<string>)
    requires |records| > 0
    ensures Lines(records) == "\n" + Join(records, "\n")
  {
    if |records| > 1 {
      LinesJoin(records[1..]);
    }
  }

  /** The body walk crosses newline-free text in single steps. */
  lemma {:induction false} WalkText(pre: string, t: string, post: string)
    requires '\n' !in t
    ensures BodyEnd(pre + t + post, |pre|) == BodyEnd(pre + t + post, |pre| + |t|)
    decreases |t|
  {
    if t != [] {
      var m := pre + t + post;
      assert m[|pre|] == t[0];
      assert t[0] in t;
      assert t == [t[0]] + t[1..];
      assert m == (pre + [t[0]]) + t[1..] + post;
      assert '\n' !in t[1..] by {
        forall c | c in t[1..] ensures c in t { }
      }
      WalkText(pre + [t[0]], t[1..], post);
    }
  }

  /** The body walk crosses one record line: its newline, then its text. */
  lemma WalkOneLine(pre: string, r: string, post: string)
    requires |r| > 0 && '\n' !in r
    ensures BodyEnd(pre + "\n" + r + post, |pre|) == BodyEnd(pre + "\n" + r + post, |pre| + 1 + |r|)
  {
    var m := pre + "\n" + r + post;
    assert m[|pre|] == '\n' && m[|pre| + 1] == r[0];
    assert r[0] in r;
    assert BodyEnd(m, |pre|) == BodyEnd(m, |pre| + 2);
    assert r == [r[0]] + r[1..];
    assert m == (pre + "\n" + [r[0]]) + r[1..] + post;
    assert '\n' !in r[1..] by {
      forall c | c in r[1..] ensures c in r { }
    }
    WalkText(pre + "\n" + [r[0]], r[1..], post);
  }

  /** The body walk crosses a run of record lines, one line at a time. */
  lemma {:induction false} WalkLines(pre: string, records: seq<string>, post: string)
    requires forall j :: 0 <= j < |records| ==> |records[j]| > 0 && '\n' !in records[j]
    ensures BodyEnd(pre + Lines(records) + post, |pre|) == BodyEnd(pre + Lines(records) + post, |pre| + |Lines(records)|)
    decreases |records|
  {
    if records != [] {
      var r := records[0];
      var rest := Lines(records[1..]);
      assert Lines(records) == "\n" + r + rest;
      var m := pre + Lines(records) + post;
      assert m == pre + "\n" + r + (rest + post);
      WalkOneLine(pre, r, rest + post);
      assert m == (pre + "\n" + r) + rest + post;
      WalkLines(pre + "\n" + r, records[1..], post);
    }
  }

  /** The leftmost block is the one at `i` when no header starts between `from` and `i`. */
  lemma {:induction false} FindBlockAt(m: string, from: nat, i: nat)
    requires from <= i && BlockAt(m, i)
    requires forall k :: from <= k < i ==> !HeaderAt(m, k)
    ensures FindBlock(m, from) == Some((i, BodyEnd(m, i + |Header|)))
    decreases i - from
  {
    if from < i {
      FindBlockAt(m, from + 1, i);
    }
  }

  lemma HeaderOneLine()
    ensures '\n' !in Header
  {
  }

  /** A line followed by record lines splits into that line and those records. */
  lemma {:induction false} LineThenLines(h: string, records: seq<string>)
    requires '\n' !in h && |records| > 0
    requires forall j :: 0 <= j < |records| ==> '\n' !in records[j]
    ensures Split(h + Lines(records), '\n')[1..] == records
  {
    var parts := [h] + records;
    LinesJoin(records);
    assert parts[1..] == records;
    assert h + Lines(records) == Join(parts, "\n");
    assert forall k :: 0 <= k < |parts| ==> '\n' !in parts[k] by {
      forall k | 0 <= k < |parts| ensures '\n' !in parts[k] {
        if k > 0 {
          assert parts[k] == records[k - 1];
        }
      }
    }
    SplitJoin(parts, '\n');
  }

  /** The header followed by record lines splits into the header line and those records. */
  lemma HeaderAndLines(records: seq<string>)
    requires |records| > 0
    requires forall j :: 0 <= j < |records| ==> '\n' !in records[j]
    ensures Split(Header + Lines(records), '\n')[1..] == records
  {
    HeaderOneLine();
    LineThenLines(Header, records);
  }

  /** Record lines followed by the end of the text or a blank line make up a whole block body. */
  lemma BodyOfLines(pre: string, records: seq<string>, post: string)
    requires |records| > 0
    requires forall j :: 0 <= j < |records| ==> |records[j]| > 0 && '\n' !in records[j]
    requires post == [] || (post[0] == '\n' && (|post| == 1 || post[1] == '\n'))
    ensures BodyEnd(pre + Lines(records) + post, |pre|) == |pre| + |Lines(records)| > |pre|
  {
    var m := pre + Lines(records) + post;
    var q := |pre| + |Lines(records)|;
    WalkLines(pre, records, post);
    assert q == |m| || BlankAt(m, q) by {
      if post != [] {
        assert m[q] == post[0];
        if |post| > 1 {
          assert m[q + 1] == post[1];
        }
      }
    }
    assert BodyEnd(m, q) == q;
    assert Lines(records) == "\n" + records[0] + Lines(records[1..]);
    assert m[|pre|] == '\n' && m[|pre| + 1] == records[0][0];
    assert records[0][0] in records[0];
  }

  /** No header starts inside `pre`: none begins before the header placed after it. */
  predicate NoHeaderBefore(pre: string) {
    forall k :: 0 <= k < |pre| ==> !HeaderAt(pre + Header, k)
  }

  /** Text without ';' holds no header start. */
  lemma NoHeaderIn(pre: string)
    requires ';' !in pre
    ensures NoHeaderBefore(pre)
  {
    var m := pre + Header;
    forall k | 0 <= k < |pre| ensures !HeaderAt(m, k) {
      assert m[k] == pre[k];
      assert pre[k] in pre;
      if k + |Header| <= |m| {
        assert m[k..k + |Header|][0] == m[k];
      }
    }
  }

  /** Whatever follows the header, a header that starts inside `pre` ends inside `pre + Header`. */
  lemma HeaderBeforeIn(pre: string, body: string, post: string)
    requires NoHeaderBefore(pre)
    ensures forall k :: 0 <= k < |pre| ==> !HeaderAt(pre + Header + body + post, k)
  {
    var q := pre + Header;
    var m := pre + Header + body + post;
    assert m[..|q|] == q;
    forall k | 0 <= k < |pre| ensures !HeaderAt(m, k) {
      assert !HeaderAt(q, k);
      assert k + |Header| <= |q|;
      assert m[k..k + |Header|] == m[..|q|][k..k + |Header|];
    }
  }

  /** The header placed after `pre` is found there, with `pre` before it. */
  lemma HeaderAfter(pre: string, body: string, post: string)
    ensures HeaderAt(pre + Header + body + post, |pre|)
    ensures (pre + Header + body + post)[..|pre|] == pre
  {
    var m := pre + Header + body + post;
    assert m[|pre|..|pre| + |Header|] == Header;
  }

  /** A header after text holding no header start, whose body walk takes a step, is the leftmost block. */
  lemma BlockFound(pre: string, body: string, post: string, e: nat)
    requires NoHeaderBefore(pre)
    requires BodyEnd(pre + Header + body + post, |pre| + |Header|) == e > |pre| + |Header|
    ensures FindBlock(pre + Header + body + post, 0) == Some((|pre|, e))
  {
    HeaderAfter(pre, body, post);
    HeaderBeforeIn(pre, body, post);
    FindBlockAt(pre + Header + body + post, 0, |pre|);
  }

  /** The record lines are read off the block that was found. */
  lemma AnswerLinesOf(m: string, i: nat, e: nat)
    requires FindBlock(m, 0) == Some((i, e))
    ensures i <= e <= |m| && AnswerLines(m) == Some(Split(m[i..e], '\n')[1..])
  {
  }

  /** The middle two parts of a four-part concatenation. */
  lemma Middle2(a: string, b: string, c: string, d: string)
    ensures (a + b + c + d)[|a|..|a| + |b| + |c|] == b + c
  {
  }

  /**
   * A message made of text in which no header starts (the `;; opcode`,
   * `;; flags` and `;; QUESTION SECTION:` lines of a response included),
   * the header, record lines each on its own line, and then the end of the
   * text or a blank line: its record lines are exactly those lines.
   */
  lemma SectionLines(pre: string, records: seq<string>, post: string)
    requires NoHeaderBefore(pre)
    requires |records| > 0
    requires forall j :: 0 <= j < |records| ==> |records[j]| > 0 && '\n' !in records[j]
    requires post == [] || (post[0] == '\n' && (|post| == 1 || post[1] == '\n'))
    ensures AnswerLines(pre + Header + Lines(records) + post) == Some(records)
  {
    var body := Lines(records);
    var e := |pre| + |Header| + |body|;
    BodyOfLines(pre + Header, records, post);
    BlockFound(pre, body, post, e);
    AnswerLinesOf(pre + Header + body + post, |pre|, e);
    Middle2(pre, Header, body, post);
    HeaderAndLines(records);
  }

  /** `SectionLines` for a message whose text before the header has no ';'. */
  lemma PlainSectionLines(pre: string, records: seq<string>, post: string)
    requires ';' !in pre
    requires |records| > 0
    requires forall j :: 0 <= j < |records| ==> |records[j]| > 0 && '\n' !in records[j]
    requires post == [] || (post[0] == '\n' && (|post| == 1 || post[1] == '\n'))
    ensures AnswerLines(pre + Header + Lines(records) + post) == Some(records)
  {
    NoHeaderIn(pre);
    SectionLines(pre, records, post);
  }

  /** `t` occurs in `a + t + b` right after `a`. */
  /** A line in which no 'A' directly follows a tab is not an `A` record. */
  lemma NotARecord(s: string)
    requires forall j :: 1 <= j < |s| && s[j] == 'A' ==> s[j - 1] != '\t'
    ensures !IsARecord(s)
  {
    forall i | 0 <= i <= |s| ensures !OccursAt(s, "\tA\t", i) {
      if i + 3 <= |s| {
        assert s[i..i + 3][0] == s[i] && s[i..i + 3][1] == s[i + 1];
      }
    }
  }

  /** A line whose only 'A' that could follow a tab is the first character of `y`, right after a non-tab. */
  lemma NotARecordSplit(x: string, y: string)
    requires |x| > 0 && 'A' !in x && x[|x| - 1] != '\t'
    requires |y| > 0 && 'A' !in y[1..]
    ensures !IsARecord(x + y)
  {
    var s := x + y;
    forall j | 1 <= j < |s| ensures s[j] != 'A' || s[j - 1] != '\t' {
      if j < |x| {
        assert s[j] == x[j] && x[j] in x;
      } else if j > |x| {
        assert s[j] == y[1..][j - |x| - 1];
      } else {
        assert s[j - 1] == x[|x| - 1];
      }
    }
    NotARecord(s);
  }

  /** The example response of test.go: a CNAME record and two A records, tab-separated. */
  const ExampleOwner := "www.hotmail.com"
  const ExampleTarget := "dispatch.kahuna." + "glbdns2.microsoft.com."
  const ExampleCnameData := "2688\tIN\tCN" + "AME\t" + ExampleTarget
  const ExampleCname := ExampleOwner + "." + "\t" + ExampleCnameData
  const ExampleAHead := ExampleTarget + "\t4\tIN" + "\tA"
  const ExampleAddress1 := "65.55.143.16"
  const ExampleAddress2 := "65.55.143.17"
  const ExampleA1 := ExampleAHead + "\t" + ExampleAddress1
  const ExampleA2 := ExampleAHead + "\t" + ExampleAddress2
  const ExampleRecords := [ExampleCname, ExampleA1, ExampleA2]
  const ExampleMessage := "A\n\n" + Header + "\n" + ExampleCname + "\n" + ExampleA1 + "\n" + ExampleA2 + "\n\n;;"

  lemma TargetText()
    ensures '\n' !in ExampleTarget && 'A' !in ExampleTarget
  {
    assert '\n' !in "dispatch.kahuna." && 'A' !in "dispatch.kahuna.";
    assert '\n' !in "glbdns2.microsoft.com." && 'A' !in "glbdns2.microsoft.com.";
  }

  lemma OwnerText()
    ensures |ExampleOwner| > 0 && DotSafe(ExampleOwner) && 'A' !in ExampleOwner && '\n' !in ExampleOwner
  {
  }

  lemma AddressText(f: string)
    requires f == ExampleAddress1 || f == ExampleAddress2
    ensures |f| > 0 && '\n' !in f && forall j :: 0 <= j < |f| ==> !IsBlank(f[j])
  {
  }

  /** An A record of the example is recognised as one, and its address is its last field. */
  lemma ARecordExample(f: string)
    requires f == ExampleAddress1 || f == ExampleAddress2
    ensures |ExampleAHead + "\t" + f| > 0 && '\n' !in ExampleAHead + "\t" + f
    ensures IsARecord(ExampleAHead + "\t" + f) && LastField(ExampleAHead + "\t" + f) == f
  {
    AddressText(f);
    TargetText();
    assert '\n' !in ExampleAHead;
    ContainsMiddle(ExampleTarget + "\t4\tIN", "\tA\t", f);
    assert ExampleAHead + "\t" + f == (ExampleTarget + "\t4\tIN") + "\tA\t" + f;
    LastFieldOf(ExampleAHead, '\t', f);
  }

  /** The CNAME record names the queried domain. */
  lemma CnameOwner()
    ensures ParsedDomain(ExampleCname) == ExampleOwner
    ensures |ExampleCname| > 0 && '\n' !in ExampleCname
  {
    OwnerText();
    TargetText();
    assert '\n' !in ExampleCnameData;
    OwnerNameParsed(ExampleOwner, '\t', ExampleCnameData);
    assert ExampleCname == ExampleOwner + "." + ['\t'] + ExampleCnameData;
  }

  /** A CNAME record line whose owner and target hold no 'A' is not an A record. */
  lemma CnameLineNotA(owner: string, target: string)
    requires 'A' !in owner && 'A' !in target
    ensures !IsARecord(owner + "." + "\t" + ("2688\tIN\tCN" + "AME\t" + target))
  {
    var x := owner + "." + "\t" + "2688\tIN\tCN";
    var y := "AME\t" + target;
    assert x[|x| - 1] == 'N';
    assert y[1..] == "ME\t" + target;
    NotARecordSplit(x, y);
    assert owner + "." + "\t" + ("2688\tIN\tCN" + "AME\t" + target) == x + y;
  }

  /** The CNAME record carries no address. */
  lemma CnameNotA()
    ensures !IsARecord(ExampleCname)
  {
    OwnerText();
    TargetText();
    CnameLineNotA(ExampleOwner, ExampleTarget);
  }

  /** Three record lines as they follow the header, each after a newline. */
  lemma Lines3(a: string, b: string, c: string)
    ensures Lines([a, b, c]) == "\n" + a + "\n" + b + "\n" + c
  {
    assert [a, b, c][1..] == [b, c];
    assert [b, c][1..] == [c];
    assert [c][1..] == [];
    assert Lines([c]) == "\n" + c;
    assert Lines([b, c]) == "\n" + b + ("\n" + c);
    assert Lines([a, b, c]) == "\n" + a + ("\n" + b + ("\n" + c));
  }

  /** Each record line of the example is non-empty and has no newline. */
  lemma ExampleRecordLines()
    ensures forall j :: 0 <= j < |ExampleRecords| ==> |ExampleRecords[j]| > 0 && '\n' !in ExampleRecords[j]
  {
    ARecordExample(ExampleAddress1);
    ARecordExample(ExampleAddress2);
    CnameOwner();
  }

  /** The answer section of the example holds exactly its three record lines. */
  lemma ExampleSection()
    ensures AnswerLines(ExampleMessage) == Some(ExampleRecords)
  {
    ExampleRecordLines();
    Lines3(ExampleCname, ExampleA1, ExampleA2);
    assert ExampleMessage == "A\n\n" + Header + Lines(ExampleRecords) + "\n\n;;";
    PlainSectionLines("A\n\n", ExampleRecords, "\n\n;;");
  }

  /** Only the two A records contribute addresses, in order. */
  lemma ExampleAddresses()
    ensures Addresses(ExampleRecords) == [ExampleAddress1, ExampleAddress2]
  {
    CnameNotA();
    ARecordExample(ExampleAddress1);
    ARecordExample(ExampleAddress2);
    assert ExampleRecords == [ExampleCname] + [ExampleA1] + [ExampleA2];
    AddressesAppend([ExampleCname] + [ExampleA1], [ExampleA2]);
    AddressesAppend([ExampleCname], [ExampleA1]);
    AddressesOfOne(ExampleCname);
    AddressesOfOne(ExampleA1);
    AddressesOfOne(ExampleA2);
  }

  /**
   * The worked example of test.go: queried for "www.hotmail.com", the
   * CNAME record gives the domain and the two A records the addresses.
   */
  lemma ParseExample()
    ensures Parse(ExampleOwner, ExampleMessage) ==
            Ok(Parsed(ExampleOwner, [ExampleAddress1, ExampleAddress2]))
  {
    ExampleSection();
    CnameOwner();
    ExampleAddresses();
  }


  /**
   * `ParseResponse(domain, message)`: the pure steps are the functions
   * above; the addresses are collected by a loop that appends to a slice.
   */
  method ParseResponse(domain: string, message: string) returns (r: ParseResult)
    ensures r == Parse(domain, message)
  {
    var answerSection := FindBlock(message, 0);
    if answerSection.None? {
      return Err(NoAnswersFound);
    }
    var (i, e) := answerSection.value;
    var answers := Split(message[i..e], '\n')[1..];
    if |answers| == 0 {
      return Err(AnswerIndexOutOfRange);
    }
    var parsedDomain := ParsedDomain(answers[0]);
    if domain != parsedDomain {
      return Err(DomainMismatch(parsedDomain));
    }
    var ips := EmptySlice();
    for k := 0 to |answers|
      invariant ips.Valid() && fresh(ips.buf)
      invariant ips.Contents() == Addresses(answers[..k])
    {
      if Contains(answers[k], "\tA\t") {
        ips := Append(ips, [LastField(answers[k])]);
      }
      assert answers[..k + 1][..k] == answers[..k];
    }
    assert answers[..|answers|] == answers;
    return Ok(Parsed(domain, ips.Contents()));
  }
}

=== FILE: cleaning.dfy ===
/**
 * main.go's input cleaning: `domainCleanerRe`, `^([0-9]+,)?([^\/]*)(?:\/.*)?$`,
 * replaced by `$2` (the domain) and by `$1$2` (the cleaned line). The
 * pattern matches a whole line unless a newline follows its first '/'
 * (`.` does not cross a newline, `[^\/]` does); a line it does not match
 * is returned unchanged by the replacement.
 */
module LineCleaning {

  predicate IsDigit(c: char) {
    '0' <= c <= '9'
  }

  /** The number of leading decimal digits of `s`. */
  function DigitRun(s: string): (k: nat)
    ensures k <= |s|
    ensures forall j :: 0 <= j < k ==> IsDigit(s[j])
    ensures k < |s| ==> !IsDigit(s[k])
  {
    if |s| > 0 && IsDigit(s[0]) then 1 + DigitRun(s[1..]) else 0
  }

  /**
   * The length of group 1, `[0-9]+,`, or 0 when the line does not start
   * with digits and a comma; a leading run of digits and a comma is always
   * taken.
   */
  function PrefixLen(line: string): (p: nat)
    ensures p == 0 || (2 <= p <= |line| && line[p - 1] == ',' && forall j :: 0 <= j < p - 1 ==> IsDigit(line[j]))
    ensures forall d :: 0 < d < |line| && line[d] == ',' && (forall j :: 0 <= j < d ==> IsDigit(line[j])) ==> p == d + 1
  {
    var d := DigitRun(line);
    if 0 < d < |line| && line[d] == ',' then d + 1 else 0
  }

  /** The index of the first '/' in `s`, or `|s|` if there is none. */
  function FirstSlash(s: string): (k: nat)
    ensures k <= |s|
    ensures '/' !in s[..k]
    ensures k < |s| ==> s[k] == '/'
  {
    if |s| == 0 then 0
    else if s[0] == '/' then 0
    else 1 + FirstSlash(s[1..])
  }

  /** The pattern matches the whole line: no newline follows the first '/'. */
  predicate Matches(line: string)
  {
    '\n' !in line[FirstSlash(line)..]
  }

  /** A line without a newline always matches. */
  lemma NewlineFreeMatches(line: string)
    requires '\n' !in line
    ensures Matches(line)
  {
    var k := FirstSlash(line);
    forall c | c in line[k..] ensures c in line { }
  }

  /** `domainCleanerRe.ReplaceAllString(line, "$2")`. */
  function Domain(line: string): (d: string)
    ensures Matches(line) ==> '/' !in d && d <= line[PrefixLen(line)..]
    ensures !Matches(line) ==> d == line
  {
    if Matches(line) then line[PrefixLen(line)..FirstSlash(line)] else line
  }

  /** `domainCleanerRe.ReplaceAllString(line, "$1$2")`. */
  function CleanLine(line: string): (c: string)
    ensures c <= line
    ensures Matches(line) ==> '/' !in c
  {
    if Matches(line) then line[..FirstSlash(line)] else line
  }

  lemma PrefixBeforeSlash(line: string)
    ensures PrefixLen(line) <= FirstSlash(line)
  {
    var d := DigitRun(line);
    if 0 < d < |line| && line[d] == ',' {
      if FirstSlash(line) < d + 1 {
        assert false;
      }
    }
  }

  /**
   * On a newline-free line, the cleaned line is the optional `digits,`
   * prefix followed by the domain; it is the line up to its first '/', so
   * the rest of the line is empty or starts with '/'; neither result
   * contains a '/'.
   */
  lemma CleaningShape(line: string)
    requires '\n' !in line
    ensures var p := PrefixLen(line);
      p <= |CleanLine(line)| &&
      CleanLine(line) == line[..p] + Domain(line) &&
      line == CleanLine(line) + line[|CleanLine(line)|..] &&
      (|CleanLine(line)| < |line| ==> line[|CleanLine(line)|] == '/') &&
      '/' !in Domain(line) && '/' !in CleanLine(line)
  {
    PrefixBeforeSlash(line);
    var k, p := FirstSlash(line), PrefixLen(line);
    assert '\n' !in line[k..] by {
      forall c | c in line[k..] ensures c in line { }
    }
    assert line[..k] == line[..p] + line[p..k];
    forall c | c in line[p..k] ensures c in line[..k] {
      var j :| 0 <= j < k - p && line[p..k][j] == c;
      assert line[..k][p + j] == c;
    }
  }

  lemma DigitRunPrefix(a: string, b: string)
    requires DigitRun(a) < |a|
    ensures DigitRun(a + b) == DigitRun(a)
  {
    if |a| > 0 && IsDigit(a[0]) {
      assert (a + b)[1..] == a[1..] + b;
      DigitRunPrefix(a[1..], b);
    }
  }

  /**
   * Cleaning is idempotent and loses nothing the domain needs: cleaning
   * the cleaned line again gives it back, and its domain is the domain of
   * the original line.
   */
  lemma CleanLineIdempotent(line: string)
    ensures CleanLine(CleanLine(line)) == CleanLine(line)
    ensures Domain(CleanLine(line)) == Domain(line)
  {
    if Matches(line) {
      var k := FirstSlash(line);
      var c := line[..k];
      PrefixBeforeSlash(line);
      assert FirstSlash(c) == |c| by {
        if FirstSlash(c) < |c| {
          assert false;
        }
      }
      assert c[..|c|] == c;
      assert Matches(c);
      var d := DigitRun(line);
      if d < k {
        DigitRunPrefix(c, line[k..]);
        assert line == c + line[k..];
        assert PrefixLen(c) == PrefixLen(line);
      } else {
        assert DigitRun(c) == |c| by {
          DigitRunAll(c);
        }
        assert PrefixLen(c) == 0;
        assert PrefixLen(line) == 0 by {
          if PrefixLen(line) != 0 {
            assert false;
          }
        }
      }
    }
  }

  lemma DigitRunAll(s: string)
    requires forall j :: 0 <= j < |s| ==> IsDigit(s[j])
    ensures DigitRun(s) == |s|
  {
    if |s| > 0 {
      DigitRunAll(s[1..]);
    }
  }

  lemma {:induction false} DigitRunThen(digits: string, rest: string)
    requires forall j :: 0 <= j < |digits| ==> IsDigit(digits[j])
    requires |rest| > 0 && !IsDigit(rest[0])
    ensures DigitRun(digits + rest) == |digits|
  {
    if |digits| > 0 {
      assert (digits + rest)[1..] == digits[1..] + rest;
      DigitRunThen(digits[1..], rest);
    } else {
      assert digits + rest == rest;
    }
  }

  lemma {:induction false} FirstSlashAfter(a: string, b: string)
    requires '/' !in a
    ensures FirstSlash(a + b) == |a| + FirstSlash(b)
  {
    if |a| > 0 {
      assert (a + b)[1..] == a[1..] + b;
      assert a == [a[0]] + a[1..];
      FirstSlashAfter(a[1..], b);
    } else {
      assert a + b == b;
    }
  }

  /**
   * A line made of `digits,`, a slash-free name and either nothing or a
   * newline-free `/…` tail cleans to the name, and to `digits,` plus the
   * name.
   */
  lemma CleaningOfUrlLine(digits: string, name: string, tail: string)
    requires |digits| > 0 && forall j :: 0 <= j < |digits| ==> IsDigit(digits[j])
    requires '/' !in name
    requires tail == [] || (tail[0] == '/' && '\n' !in tail)
    ensures Domain(digits + "," + name + tail) == name
    ensures CleanLine(digits + "," + name + tail) == digits + "," + name
  {
    var line := digits + "," + name + tail;
    assert line == digits + ("," + name + tail);
    DigitRunThen(digits, "," + name + tail);
    assert line[|digits|] == ',';
    assert PrefixLen(line) == |digits| + 1;
    assert '/' !in digits + "," + name by {
      assert forall j :: 0 <= j < |digits| ==> digits[j] != '/';
    }
    assert line == (digits + "," + name) + tail;
    FirstSlashAfter(digits + "," + name, tail);
    assert FirstSlash(line) == |digits| + 1 + |name|;
    assert line[FirstSlash(line)..] == tail;
  }

  /**
   * The example lines "42,sub.example.com/path?x=1" and "1,google.com",
   * written as their parts.
   */
  lemma CleaningExample()
    ensures Domain("42" + "," + "sub.example.com" + "/path?x=1") == "sub.example.com"
    ensures CleanLine("42" + "," + "sub.example.com" + "/path?x=1") == "42" + "," + "sub.example.com"
    ensures Domain("1" + "," + "google.com" + "") == "google.com"
  {
    var digits, name, tail := "42", "sub.example.com", "/path?x=1";
    assert IsDigit(digits[0]) && IsDigit(digits[1]);
    assert '/' !in name;
    assert '\n' !in tail;
    CleaningOfUrlLine(digits, name, tail);
    assert IsDigit("1"[0]);
    assert '/' !in "google.com";
    CleaningOfUrlLine("1", "google.com", "");
  }
}

=== FILE: pipeline.dfy ===
/**
 * main.go's `main` once the options are parsed: the `resultMap` of pending
 * input lines, one `resolve(line, 1)` per input line by the workers, and
 * the receiver that prints the results as they arrive. The workers'
 * scheduling is the `arrival` order, a sequence that lists every input
 * position exactly once; the receiver is the loop as written, which
 * breaks after the last result when there is at least one input line and
 * otherwise is left waiting on the channel. `main` returns at once when option
 * parsing fails (main.go:199-202) and nothing assigns its `err` after
 * that, so the receiver always sees a nil `err` and never prints the
 * "failed ::" notice.
 */
module Pipeline {
  import opened Resolver
  import opened Receiver
  import opened LineCleaning

  /** `arrival` has one entry per input line, and names each position once. */
  predicate IsArrival(arrival: seq<nat>, n: nat)
  {
    |arrival| == n &&
    (forall k :: 0 <= k < n ==> arrival[k] < n) &&
    (forall i :: 0 <= i < n ==> i in arrival)
  }

  /** The one result that `resolve(line, 1)` sends. */
  function Sent(line: string, lookup: nat -> LookupOutcome): (r: Result)
    ensures r.domain == Domain(line) && r.originalLine == CleanLine(line)
  {
    SendsOnce(line, 1, lookup);
    ResolveFrom(line, 1, lookup).sent[0]
  }

  /** The results on the channel, in the order the workers finish. */
  function Arrived(lines: seq<string>, lookups: seq<nat -> LookupOutcome>, arrival: seq<nat>): (results: seq<Result>)
    requires |lookups| == |lines| && IsArrival(arrival, |lines|)
    ensures |results| == |lines|
    ensures forall k :: 0 <= k < |results| ==>
      results[k].domain == Domain(lines[arrival[k]]) && results[k].originalLine == CleanLine(lines[arrival[k]])
  {
    seq(|arrival|, k requires 0 <= k < |arrival| => Sent(lines[arrival[k]], lookups[arrival[k]]))
  }

  /** The loop that fills `resultMap`: every input line pending. */
  method BuildPending(lines: seq<string>) returns (resultMap: map<string, bool>)
    ensures resultMap == PendingMap(lines)
    ensures resultMap.Keys == set d | d in lines
  {
    resultMap := map[];
    for j := 0 to |lines|
      invariant resultMap == PendingMap(lines[..j])
    {
      assert lines[..j + 1] == lines[..j] + [lines[j]];
      resultMap := resultMap[lines[j] := false];
    }
    assert lines[..|lines|] == lines;
  }

  /** The workers: one `resolve(line, 1)` per input line, in dispatch order. */
  method Dispatch(lines: seq<string>, lookups: seq<nat -> LookupOutcome>) returns (sent: seq<Result>)
    requires |lookups| == |lines|
    ensures |sent| == |lines|
    ensures forall m :: 0 <= m < |lines| ==> sent[m] == Sent(lines[m], lookups[m])
  {
    sent := [];
    for j := 0 to |lines|
      invariant |sent| == j
      invariant forall m :: 0 <= m < j ==> sent[m] == Sent(lines[m], lookups[m])
    {
      var result, _ := Resolve(lines[j], lookups[j]);
      sent := sent + [result];
    }
  }

  /** The channel: the results the workers sent, in the order they finish. */
  method Deliver(lines: seq<string>, lookups: seq<nat -> LookupOutcome>, sent: seq<Result>, arrival: seq<nat>)
    returns (results: seq<Result>)
    requires |lookups| == |lines| && IsArrival(arrival, |lines|)
    requires |sent| == |lines| && forall m :: 0 <= m < |lines| ==> sent[m] == Sent(lines[m], lookups[m])
    ensures results == Arrived(lines, lookups, arrival)
  {
    ghost var arrived := Arrived(lines, lookups, arrival);
    results := [];
    for k := 0 to |arrival|
      invariant results == arrived[..k]
    {
      assert arrived[k] == sent[arrival[k]];
      assert arrived[..k + 1] == arrived[..k] + [arrived[k]];
      results := results + [sent[arrival[k]]];
    }
    assert arrived[..|arrival|] == arrived;
  }

  /** `results` holds, at each arrival position, the result for the line that finished there. */
  predicate ResultsFor(lines: seq<string>, arrival: seq<nat>, results: seq<Result>)
  {
    IsArrival(arrival, |lines|) && |results| == |lines| &&
    forall k :: 0 <= k < |results| ==> results[k].domain == Domain(lines[arrival[k]])
  }

  /** Once every result has been received, each input line's domain is marked done. */
  lemma MarksEveryDomain(lines: seq<string>, arrival: seq<nat>, results: seq<Result>, pending: map<string, bool>)
    requires ResultsFor(lines, arrival, results)
    ensures forall i :: 0 <= i < |lines| ==>
      Domain(lines[i]) in MarkAll(pending, results) && MarkAll(pending, results)[Domain(lines[i])]
  {
    MarkAllMarks(pending, results);
    forall i | 0 <= i < |lines|
      ensures Domain(lines[i]) in MarkAll(pending, results) && MarkAll(pending, results)[Domain(lines[i])]
    {
      assert i in arrival;
      var k :| 0 <= k < |arrival| && arrival[k] == i;
      assert results[k].domain == Domain(lines[i]);
      assert results[k] in results;
    }
  }

  /** The keys of `resultMap` at the end: the input lines and their domains, nothing else. */
  lemma MarkedKeys(lines: seq<string>, arrival: seq<nat>, results: seq<Result>)
    requires ResultsFor(lines, arrival, results)
    ensures forall d :: d in MarkAll(PendingMap(lines), results) <==>
      d in lines || exists i :: 0 <= i < |lines| && d == Domain(lines[i])
  {
    var marked := MarkAll(PendingMap(lines), results);
    MarkAllKeys(PendingMap(lines), results);
    forall d | d in marked && d !in lines
      ensures exists i :: 0 <= i < |lines| && d == Domain(lines[i])
    {
      assert d in set r | r in results :: r.domain;
      var r :| r in results && r.domain == d;
      var k :| 0 <= k < |results| && results[k] == r;
      assert d == Domain(lines[arrival[k]]);
    }
    MarksEveryDomain(lines, arrival, results, PendingMap(lines));
  }

  /**
   * The whole run over input lines `lines`: every line resolved once, the
   * results received in arrival order, exactly one printed result line
   * each and no notice, and every line's domain marked done in `resultMap`.
   * The receiver breaks out of its loop iff there is at least one line;
   * with none it never breaks and is left waiting.
   */
  method RunPipeline(lines: seq<string>, lookups: seq<nat -> LookupOutcome>, arrival: seq<nat>, preserveInput: bool)
    returns (out: seq<Output>, resultMap: map<string, bool>, stopped: bool)
    requires |lookups| == |lines| && IsArrival(arrival, |lines|)
    ensures stopped <==> lines != []
    ensures out == EmitAll(Arrived(lines, lookups, arrival), preserveInput, false)
    ensures |out| == |lines|
    ensures forall k :: 0 <= k < |out| ==> out[k] == Line(FormatLine(Arrived(lines, lookups, arrival)[k], preserveInput))
    ensures forall i :: 0 <= i < |lines| ==> Domain(lines[i]) in resultMap && resultMap[Domain(lines[i])]
    ensures forall d :: d in resultMap <==> d in lines || exists i :: 0 <= i < |lines| && d == Domain(lines[i])
  {
    var pending := BuildPending(lines);
    var sent := Dispatch(lines, lookups);
    var results := Deliver(lines, lookups, sent, arrival);
    var consumed;
    out, resultMap, consumed, stopped := Receive(results, |lines|, preserveInput, false, pending);
    BreakPointCases(|lines|, |results|);
    assert results[..consumed] == results;
    ReceivedAll(lines, lookups, arrival, preserveInput, results, out, resultMap);
  }

  /** What the receiver leaves once it has taken every arrived result. */
  lemma ReceivedAll(lines: seq<string>, lookups: seq<nat -> LookupOutcome>, arrival: seq<nat>, preserveInput: bool,
                    results: seq<Result>, out: seq<Output>, resultMap: map<string, bool>)
    requires |lookups| == |lines| && IsArrival(arrival, |lines|)
    requires results == Arrived(lines, lookups, arrival)
    requires out == EmitAll(results, preserveInput, false)
    requires resultMap == MarkAll(PendingMap(lines), results)
    ensures |out| == |lines|
    ensures forall k :: 0 <= k < |out| ==> out[k] == Line(FormatLine(results[k], preserveInput))
    ensures forall i :: 0 <= i < |lines| ==> Domain(lines[i]) in resultMap && resultMap[Domain(lines[i])]
    ensures forall d :: d in resultMap <==> d in lines || exists i :: 0 <= i < |lines| && d == Domain(lines[i])
  {
    EmitAllLines(results, preserveInput, false);
    MarksEveryDomain(lines, arrival, results, PendingMap(lines));
    MarkedKeys(lines, arrival, results);
  }
}

=== FILE: receiver.dfy ===
/**
 * main.go's result collector: the `resultMap` of pending lines and the
 * `receiver` loop that takes results off the channel, prints one line per
 * result and stops once its count reaches `numDomains`. The channel is the
 * sequence of results in the order they arrive; results beyond the end of
 * that sequence never arrive, so a receiver that has not stopped when it
 * runs out is left waiting.
 */
module Receiver {
  import opened Wrappers
  import opened Text
  import opened Resolver

  /** One printed line: the "failed ::" notice for a domain, or a result line. */
  datatype Output = FailureNotice(domain: string) | Line(text: string)

  /** The label of a result line: the cleaned input line with `-p`, the domain otherwise. */
  function Label(r: Result, preserveInput: bool): (l: string)
    ensures l == r.domain || l == r.originalLine
  {
    if preserveInput then r.originalLine else r.domain
  }

  /** The result line: the label, a space, and the addresses joined by spaces. */
  function FormatLine(r: Result, preserveInput: bool): (line: string)
    ensures Label(r, preserveInput) + " " <= line
  {
    Label(r, preserveInput) + " " + Join(r.addresses, " ")
  }

  /**
   * A result line splits back on spaces into its label and addresses
   * (a single empty field when there are none), provided none of them
   * contains a space and no address is empty.
   */
  lemma FormatLineSplits(r: Result, preserveInput: bool)
    requires ' ' !in Label(r, preserveInput)
    requires forall j :: 0 <= j < |r.addresses| ==> ' ' !in r.addresses[j]
    ensures Split(FormatLine(r, preserveInput), ' ') ==
            [Label(r, preserveInput)] + (if r.addresses == [] then [""] else r.addresses)
  {
    var head := Label(r, preserveInput);
    var fields := [head] + (if r.addresses == [] then [""] else r.addresses);
    assert fields[1..] == (if r.addresses == [] then [""] else r.addresses);
    assert Join(fields, " ") == FormatLine(r, preserveInput);
    SplitJoin(fields, ' ');
  }

  /**
   * What the receiver prints for one result. The notice depends on the
   * `err` of main's scope, which is the option-parsing error, not the
   * result's own error. `main` returns when that error is set, before any
   * receiver runs, so in a run `outerErr` is false and the notice branch
   * is never taken; it is kept here as the loop is written.
   */
  function Emit(r: Result, preserveInput: bool, outerErr: bool): (out: seq<Output>)
    ensures |out| == (if outerErr then 2 else 1) && out[|out| - 1] == Line(FormatLine(r, preserveInput))
  {
    (if outerErr then [FailureNotice(r.domain)] else []) + [Line(FormatLine(r, preserveInput))]
  }

  /** Everything printed for the results consumed, in arrival order. */
  function EmitAll(results: seq<Result>, preserveInput: bool, outerErr: bool): (out: seq<Output>)
    ensures |out| == (if outerErr then 2 * |results| else |results|)
  {
    if results == [] then []
    else
      var last := |results| - 1;
      EmitAll(results[..last], preserveInput, outerErr) + Emit(results[last], preserveInput, outerErr)
  }

  /**
   * `out` shows result `r` as the `j`-th result: its line at position `j`
   * (`2j + 1` with the outer error set, right after its notice).
   */
  predicate Shows(out: seq<Output>, r: Result, j: nat, preserveInput: bool, outerErr: bool)
  {
    var at := if outerErr then 2 * j + 1 else j;
    at < |out| && out[at] == Line(FormatLine(r, preserveInput)) &&
    (outerErr ==> out[at - 1] == FailureNotice(r.domain))
  }

  /**
   * One result line per consumed result, in the order the results
   * arrived; with the outer error set, each is preceded by a notice.
   */
  lemma {:induction false} EmitAllLines(results: seq<Result>, preserveInput: bool, outerErr: bool)
    ensures forall j :: 0 <= j < |results| ==>
      Shows(EmitAll(results, preserveInput, outerErr), results[j], j, preserveInput, outerErr)
  {
    if results != [] {
      var last := |results| - 1;
      var init := results[..last];
      EmitAllLines(init, preserveInput, outerErr);
      var before := EmitAll(init, preserveInput, outerErr);
      var out := EmitAll(results, preserveInput, outerErr);
      assert out == before + Emit(results[last], preserveInput, outerErr);
      forall j | 0 <= j < |results|
        ensures Shows(out, results[j], j, preserveInput, outerErr)
      {
        if j < last {
          assert init[j] == results[j];
          assert Shows(before, results[j], j, preserveInput, outerErr);
        } else {
          assert |before| == (if outerErr then 2 * j else j);
        }
      }
    }
  }

  /** Two result sequences that differ only in the results' own errors. */
  predicate SameButErrors(a: seq<Result>, b: seq<Result>) {
    |a| == |b| &&
    forall j :: 0 <= j < |a| ==> a[j].(err := None) == b[j].(err := None)
  }

  /** What is printed does not depend on the results' own errors. */
  lemma {:induction false} OutputIgnoresResultErrors(a: seq<Result>, b: seq<Result>, preserveInput: bool, outerErr: bool)
    requires SameButErrors(a, b)
    ensures EmitAll(a, preserveInput, outerErr) == EmitAll(b, preserveInput, outerErr)
  {
    if a != [] {
      var last := |a| - 1;
      assert SameButErrors(a[..last], b[..last]);
      OutputIgnoresResultErrors(a[..last], b[..last], preserveInput, outerErr);
      assert a[last].(err := None) == b[last].(err := None);
    }
  }

  /** `resultMap` before any result: every input line pending. */
  function PendingMap(domains: seq<string>): (m: map<string, bool>)
    ensures m.Keys == set d | d in domains
    ensures forall d :: d in m ==> !m[d]
  {
    map d | d in domains :: false
  }

  /** `resultMap` after the results consumed: each one's domain marked done. */
  function MarkAll(m: map<string, bool>, results: seq<Result>): (marked: map<string, bool>)
    ensures m.Keys <= marked.Keys
  {
    if results == [] then m
    else
      var last := |results| - 1;
      MarkAll(m, results[..last])[results[last].domain := true]
  }

  lemma {:induction false} MarkAllKeys(m: map<string, bool>, results: seq<Result>)
    ensures MarkAll(m, results).Keys == m.Keys + set r | r in results :: r.domain
  {
    if results != [] {
      var last := |results| - 1;
      var init := results[..last];
      MarkAllKeys(m, init);
      assert results == init + [results[last]];
      assert (set r | r in results :: r.domain) == (set r | r in init :: r.domain) + {results[last].domain};
    }
  }

  lemma {:induction false} MarkAllDone(m: map<string, bool>, results: seq<Result>)
    ensures forall j :: 0 <= j < |results| ==>
      results[j].domain in MarkAll(m, results) && MarkAll(m, results)[results[j].domain]
  {
    if results != [] {
      var last := |results| - 1;
      var init := results[..last];
      MarkAllDone(m, init);
      forall j | 0 <= j < last
        ensures results[j].domain in MarkAll(m, results) && MarkAll(m, results)[results[j].domain]
      {
        assert init[j] == results[j];
      }
    }
  }

  lemma {:induction false} MarkAllKeeps(m: map<string, bool>, results: seq<Result>)
    ensures forall d :: d in m && (forall j :: 0 <= j < |results| ==> results[j].domain != d) ==>
              d in MarkAll(m, results) && MarkAll(m, results)[d] == m[d]
  {
    if results != [] {
      var last := |results| - 1;
      var init := results[..last];
      MarkAllKeeps(m, init);
      forall d | d in m && (forall j :: 0 <= j < |results| ==> results[j].domain != d)
        ensures d in MarkAll(m, results) && MarkAll(m, results)[d] == m[d]
      {
        assert forall j :: 0 <= j < |init| ==> init[j].domain != d by {
          forall j | 0 <= j < |init| ensures init[j].domain != d {
            assert init[j] == results[j];
          }
        }
      }
    }
  }

  /**
   * Every consumed result's domain is marked done; every other key keeps
   * its value, and no other key is added.
   */
  lemma MarkAllMarks(m: map<string, bool>, results: seq<Result>)
    ensures MarkAll(m, results).Keys == m.Keys + set r | r in results :: r.domain
    ensures forall j :: 0 <= j < |results| ==> MarkAll(m, results)[results[j].domain]
    ensures forall d :: d in m && (forall j :: 0 <= j < |results| ==> results[j].domain != d) ==>
              MarkAll(m, results)[d] == m[d]
  {
    MarkAllKeys(m, results);
    MarkAllDone(m, results);
    MarkAllKeeps(m, results);
  }

  /**
   * The loop as written counts a result before comparing with `numDomains`:
   * the number of results after which it breaks, if it ever does, when
   * `available` results arrive.
   */
  function BreakPoint(numDomains: int, available: nat): (b: Option<nat>)
    ensures b.Some? ==> b.value == numDomains && 1 <= numDomains <= available
  {
    if available == 0 then None
    else if BreakPoint(numDomains, available - 1).Some? then BreakPoint(numDomains, available - 1)
    else if available == numDomains then Some(available)
    else None
  }

  /**
   * The loop breaks exactly when `numDomains` is between 1 and the number
   * of results that arrive, and then right after result number `numDomains`.
   */
  lemma {:induction false} BreakPointCases(numDomains: int, available: nat)
    ensures BreakPoint(numDomains, available) ==
            (if 1 <= numDomains <= available then Some(numDomains) else None)
  {
    if available > 0 {
      BreakPointCases(numDomains, available - 1);
    }
  }

  /** With no input lines the receiver as written never breaks, however many results arrive. */
  lemma {:induction false} ZeroDomainsNeverBreak(available: nat)
    ensures BreakPoint(0, available) == None
  {
    if available > 0 {
      ZeroDomainsNeverBreak(available - 1);
    }
  }

  /** Consuming one more result prints what that result produces and marks its domain. */
  lemma ReceiveStep(results: seq<Result>, i: nat, preserveInput: bool, outerErr: bool, pending: map<string, bool>)
    requires i < |results|
    ensures EmitAll(results[..i + 1], preserveInput, outerErr) ==
            EmitAll(results[..i], preserveInput, outerErr) + Emit(results[i], preserveInput, outerErr)
    ensures MarkAll(pending, results[..i + 1]) == MarkAll(pending, results[..i])[results[i].domain := true]
  {
    assert results[..i + 1][..i] == results[..i];
  }

  /** The receiver's prints and its mark for result `i`, in the order the loop makes them. */
  lemma ReceiveOne(results: seq<Result>, i: nat, preserveInput: bool, outerErr: bool, pending: map<string, bool>,
                   out: seq<Output>, resultMap: map<string, bool>)
    requires i < |results|
    requires out == EmitAll(results[..i], preserveInput, outerErr)
    requires resultMap == MarkAll(pending, results[..i])
    ensures (if outerErr then out + [FailureNotice(results[i].domain)] else out) + [Line(FormatLine(results[i], preserveInput))]
            == EmitAll(results[..i + 1], preserveInput, outerErr)
    ensures resultMap[results[i].domain := true] == MarkAll(pending, results[..i + 1])
  {
    ReceiveStep(results, i, preserveInput, outerErr, pending);
  }

  /**
   * The `receiver` closure as written: consumes results until its count
   * equals `numDomains`. `stopped` is false when the results ran out first:
   * the receiver is then still blocked on the channel.
   */
  method Receive(results: seq<Result>, numDomains: int, preserveInput: bool, outerErr: bool,
                 pending: map<string, bool>)
    returns (out: seq<Output>, resultMap: map<string, bool>, consumed: nat, stopped: bool)
    ensures stopped == BreakPoint(numDomains, |results|).Some?
    ensures consumed == if stopped then BreakPoint(numDomains, |results|).value else |results|
    ensures consumed <= |results|
    ensures out == EmitAll(results[..consumed], preserveInput, outerErr)
    ensures resultMap == MarkAll(pending, results[..consumed])
  {
    out, resultMap, stopped := [], pending, false;
    var i := 0;
    while i < |results|
      invariant 0 <= i <= |results|
      invariant BreakPoint(numDomains, i) == None
      invariant out == EmitAll(results[..i], preserveInput, outerErr)
      invariant resultMap == MarkAll(pending, results[..i])
    {
      var result := results[i];
      ReceiveOne(results, i, preserveInput, outerErr, pending, out, resultMap);
      if outerErr {
        out := out + [FailureNotice(result.domain)];
      }
      out := out + [Line(FormatLine(result, preserveInput))];
      resultMap := resultMap[result.domain := true];
      i := i + 1;
      if i == numDomains {
        BreakPointCases(numDomains, |results|);
        stopped := true;
        break;
      }
    }
    consumed := i;
  }

  /**
   * The receiver with its count tested before each receive, so that it
   * stops after exactly `numDomains` results, with zero as well.
   */
  method ReceiveCounted(results: seq<Result>, numDomains: nat, preserveInput: bool, outerErr: bool,
                        pending: map<string, bool>)
    returns (out: seq<Output>, resultMap: map<string, bool>, consumed: nat, stopped: bool)
    ensures stopped <==> numDomains <= |results|
    ensures consumed == if stopped then numDomains else |results|
    ensures out == EmitAll(results[..consumed], preserveInput, outerErr)
    ensures resultMap == MarkAll(pending, results[..consumed])
  {
    out, resultMap, stopped := [], pending, numDomains == 0;
    var i := 0;
    while i < |results| && !stopped
      invariant 0 <= i <= |results| && i <= numDomains
      invariant stopped <==> i == numDomains
      invariant out == EmitAll(results[..i], preserveInput, outerErr)
      invariant resultMap == MarkAll(pending, results[..i])
    {
      var result := results[i];
      ReceiveOne(results, i, preserveInput, outerErr, pending, out, resultMap);
      if outerErr {
        out := out + [FailureNotice(result.domain)];
      }
      out := out + [Line(FormatLine(result, preserveInput))];
      resultMap := resultMap[result.domain := true];
      i := i + 1;
      stopped := i == numDomains;
    }
    consumed := i;
  }
}

=== FILE: resolver.dfy ===
/**
 * main.go's `resolve(line, attemptNumber)`: cleans the line, looks the
 * domain up, retries a failed lookup while `attemptNumber < MAX_ATTEMPTS`,
 * and sends one `Result` on the results channel. The lookup itself (host
 * or reverse, chosen by `net.ParseIP`) and the race against the five-second
 * timer are not performed: `lookup(n)` is what attempt number `n` ends with.
 */
module Resolver {
  import opened Wrappers
  import opened LineCleaning

  const MaxAttempts := 3

  /**
   * How one attempt ends: the lookup returned (with its addresses, and
   * whether it returned an error) before the timer, or the timer fired first.
   */
  datatype LookupOutcome = Lookup(addresses: seq<string>, failed: bool) | TimedOut

  datatype ResolveError = LookupError | TimeoutError

  /** `Result{domain, originalLine, addresses, err}` as sent on the channel. */
  datatype Result = Result(domain: string, originalLine: string, addresses: seq<string>, err: Option<ResolveError>)

  /** What one top-level call does: the results it sends and how many lookups it starts. */
  datatype Run = Run(sent: seq<Result>, lookups: nat)

  /**
   * `resolve(line, attemptNumber)` as written, recursion included: a failed
   * lookup below the cap recurses and returns without sending; every other
   * path sends one result built from the cleaned line.
   */
  function ResolveFrom(line: string, attemptNumber: nat, lookup: nat -> LookupOutcome): (r: Run)
    ensures |r.sent| == 1 && 1 <= r.lookups
    decreases MaxAttempts - attemptNumber
  {
    var domain := Domain(line);
    var cleanLine := CleanLine(line);
    match lookup(attemptNumber)
    case TimedOut =>
      Run([Result(domain, cleanLine, [], Some(TimeoutError))], 1)
    case Lookup(addresses, failed) =>
      if failed && attemptNumber < MaxAttempts then
        var rest := ResolveFrom(line, attemptNumber + 1, lookup);
        Run(rest.sent, 1 + rest.lookups)
      else
        Run([Result(domain, cleanLine, addresses, if failed then Some(LookupError) else None)], 1)
  }

  /**
   * Exactly one result is sent per call, and it carries the domain and the
   * cleaned line (not the raw input line).
   */
  lemma {:induction false} SendsOnce(line: string, attemptNumber: nat, lookup: nat -> LookupOutcome)
    ensures |ResolveFrom(line, attemptNumber, lookup).sent| == 1
    ensures ResolveFrom(line, attemptNumber, lookup).sent[0].domain == Domain(line)
    ensures ResolveFrom(line, attemptNumber, lookup).sent[0].originalLine == CleanLine(line)
    decreases MaxAttempts - attemptNumber
  {
    var o := lookup(attemptNumber);
    if o.Lookup? && o.failed && attemptNumber < MaxAttempts {
      SendsOnce(line, attemptNumber + 1, lookup);
    }
  }

  /**
   * The retry cap: a call starting at attempt `a <= MAX_ATTEMPTS` starts at
   * least one and at most `MAX_ATTEMPTS - a + 1` lookups; every lookup but
   * the last failed, a timeout is never retried, and a failed last lookup
   * is the one at attempt `MAX_ATTEMPTS`.
   */
  lemma RetryCap(line: string, a: nat, lookup: nat -> LookupOutcome)
    requires 1 <= a <= MaxAttempts
    ensures var run := ResolveFrom(line, a, lookup);
      1 <= run.lookups <= MaxAttempts - a + 1 &&
      (forall n :: a <= n < a + run.lookups - 1 ==> lookup(n).Lookup? && lookup(n).failed) &&
      (lookup(a + run.lookups - 1).Lookup? && lookup(a + run.lookups - 1).failed ==>
         a + run.lookups - 1 == MaxAttempts)
    ensures lookup(a).TimedOut? ==> ResolveFrom(line, a, lookup).lookups == 1
  {
    RetryBound(line, a, lookup);
    RetriedFailed(line, a, lookup);
  }

  /** At most `MAX_ATTEMPTS - a + 1` lookups, and a failed last one is at the cap. */
  lemma {:induction false} RetryBound(line: string, a: nat, lookup: nat -> LookupOutcome)
    requires 1 <= a <= MaxAttempts
    ensures var run := ResolveFrom(line, a, lookup);
      1 <= run.lookups <= MaxAttempts - a + 1 &&
      (lookup(a + run.lookups - 1).Lookup? && lookup(a + run.lookups - 1).failed ==>
         a + run.lookups - 1 == MaxAttempts)
    decreases MaxAttempts - a
  {
    var o := lookup(a);
    if o.Lookup? && o.failed && a < MaxAttempts {
      RetryBound(line, a + 1, lookup);
      assert ResolveFrom(line, a, lookup).lookups == 1 + ResolveFrom(line, a + 1, lookup).lookups;
    }
  }

  /** Every lookup before the last one failed. */
  lemma {:induction false} RetriedFailed(line: string, a: nat, lookup: nat -> LookupOutcome)
    requires 1 <= a <= MaxAttempts
    ensures var run := ResolveFrom(line, a, lookup);
      forall n :: a <= n < a + run.lookups - 1 ==> lookup(n).Lookup? && lookup(n).failed
    decreases MaxAttempts - a
  {
    var o := lookup(a);
    if o.Lookup? && o.failed && a < MaxAttempts {
      RetriedFailed(line, a + 1, lookup);
      var rest := ResolveFrom(line, a + 1, lookup);
      assert ResolveFrom(line, a, lookup).lookups == 1 + rest.lookups;
      forall n | a <= n < a + rest.lookups
        ensures lookup(n).Lookup? && lookup(n).failed
      {
      }
    }
  }

  /** A failed lookup below the cap hands over to the next attempt, which sends the result. */
  lemma Retried(line: string, a: nat, lookup: nat -> LookupOutcome)
    requires lookup(a).Lookup? && lookup(a).failed && a < MaxAttempts
    ensures var rest := ResolveFrom(line, a + 1, lookup);
      ResolveFrom(line, a, lookup) == Run(rest.sent, 1 + rest.lookups)
  {
  }

  /** Any other outcome sends the result of this attempt. */
  lemma Settled(line: string, a: nat, lookup: nat -> LookupOutcome)
    requires !(lookup(a).Lookup? && lookup(a).failed && a < MaxAttempts)
    ensures var run := ResolveFrom(line, a, lookup);
      run.lookups == 1 && Reports(run.sent[0], lookup(a))
  {
  }

  /** `r` reports how lookup `last` ended: its error, and its addresses unless it timed out. */
  predicate Reports(r: Result, last: LookupOutcome) {
    r.err == (if last.TimedOut? then Some(TimeoutError) else if last.failed then Some(LookupError) else None) &&
    r.addresses == (if last.TimedOut? then [] else last.addresses)
  }

  /**
   * The error a result carries tells how its last lookup ended: none when
   * that lookup succeeded, a timeout when the timer fired, a lookup error
   * when the lookup failed at the last allowed attempt.
   */
  lemma {:induction false} ResultError(line: string, a: nat, lookup: nat -> LookupOutcome)
    requires 1 <= a <= MaxAttempts
    ensures var run := ResolveFrom(line, a, lookup);
      |run.sent| == 1 && Reports(run.sent[0], lookup(a + run.lookups - 1))
    decreases MaxAttempts - a
  {
    var o := lookup(a);
    if o.Lookup? && o.failed && a < MaxAttempts {
      ResultError(line, a + 1, lookup);
      Retried(line, a, lookup);
    } else {
      Settled(line, a, lookup);
    }
  }

  /**
   * `resolve(line, 1)` with its recursion unrolled into a loop over the
   * attempt number: returns the one result the call sends and the number of
   * lookups it starts.
   */
  method Resolve(line: string, lookup: nat -> LookupOutcome) returns (result: Result, lookups: nat)
    ensures ResolveFrom(line, 1, lookup) == Run([result], lookups)
    ensures 1 <= lookups <= MaxAttempts
  {
    var attemptNumber := 1;
    while true
      invariant 1 <= attemptNumber <= MaxAttempts
      invariant ResolveFrom(line, 1, lookup) ==
                Run(ResolveFrom(line, attemptNumber, lookup).sent,
                    attemptNumber - 1 + ResolveFrom(line, attemptNumber, lookup).lookups)
      decreases MaxAttempts - attemptNumber
    {
      var domain := Domain(line);
      var cleanLine := CleanLine(line);
      var addresses: seq<string> := [];
      var err: Option<ResolveError> := None;
      match lookup(attemptNumber) {
        case TimedOut =>
          err := Some(TimeoutError);
        case Lookup(found, failed) =>
          addresses := found;
          if failed {
            if attemptNumber < MaxAttempts {
              attemptNumber := attemptNumber + 1;
              continue;
            }
            err := Some(LookupError);
          }
      }
      result := Result(domain, cleanLine, addresses, err);
      lookups := attemptNumber;
      return;
    }
  }
}

=== FILE: ring.dfy ===
/**
 * The round-robin DNS server ring: the cursor step shared by `next` in
 * main.go and `Next` in dnsserverring.go, the start-up health check `Test`
 * and the retry-on-timeout `Resolve`. Exchanges with the servers are not
 * performed: each one is recorded as a `Query` and its outcome is supplied
 * by the caller.
 */
module ServerRing {
  import opened Wrappers
  import opened Text
  import opened Slices

  /** The domain every server is asked about during the health check. */
  const ProbeDomain := "google.com"

  /** The error text that marks an exchange as timed out. */
  const IoTimeoutErrorMessage := "i/o timeout"

  /** One exchange sent: the question name (with its trailing dot) and the server's `host:53`. */
  datatype Query = Query(qname: string, address: string)

  /** What one exchange returned: a response with its Rcode, or an error with its text. */
  datatype ExchangeOutcome = Reply(rcode: int) | ExchangeError(message: string)

  datatype TestError = NoWorkingServers

  /**
   * What `Resolve` ends with: the response (whatever its Rcode), a failure
   * carrying the exchange error, or `Unfinished` when every supplied
   * outcome timed out and the ring would go on retrying.
   */
  datatype ResolveOutcome = Response(rcode: int) | Failed(message: string) | Unfinished

  /** The question for `domain` as a fully qualified name, sent to port 53 of `server`. */
  function QueryFor(domain: string, server: string): (q: Query)
    ensures |q.qname| == |domain| + 1 && q.qname[..|domain|] == domain && q.qname[|domain|] == '.'
    ensures |q.address| == |server| + 3 && q.address[..|server|] == server && q.address[|server|..] == ":53"
  {
    Query(domain + ".", server + ":53")
  }

  /** The cursor after one call of `next`: back to 0 from a negative cursor or the last position. */
  function Advance(index: int, n: nat): (j: int)
    requires n > 0 && index < n
    ensures 0 <= j < n
    ensures j == if index < 0 then 0 else (index + 1) % n
  {
    if index < 0 || index + 1 == n then 0 else index + 1
  }

  /** The cursor after `k` calls of `next` from cursor `start`. */
  function Position(start: int, n: nat, k: nat): (j: int)
    requires n > 0 && start < n
    ensures j < n
    ensures k > 0 ==> 0 <= j
  {
    if k == 0 then start else Advance(Position(start, n, k - 1), n)
  }

  /** The positions handed out by `k` successive calls of `next` from cursor `start`. */
  function Visits(start: int, n: nat, k: nat): (v: seq<int>)
    requires n > 0 && start < n
    ensures |v| == k
  {
    if k == 0 then [] else Visits(start, n, k - 1) + [Position(start, n, k)]
  }

  lemma {:induction false} MulAtLeast(a: nat, n: nat)
    requires a >= 1
    ensures a * n >= n
  {
    if a > 1 {
      MulAtLeast(a - 1, n);
      assert a * n == (a - 1) * n + n;
    }
  }

  /** Euclidean division is determined by its quotient and remainder. */
  lemma DivModUnique(m: int, n: int, q: int, r: int)
    requires n > 0 && 0 <= r < n && m == q * n + r
    ensures m / n == q && m % n == r
  {
    var q0, r0 := m / n, m % n;
    assert m == q0 * n + r0;
    var d := q - q0;
    assert d * n == q * n - q0 * n;
    if d >= 1 {
      MulAtLeast(d, n);
    }
  }

  lemma ModSucc(m: nat, n: nat)
    requires n > 0
    ensures (m % n + 1) % n == (m + 1) % n
  {
    var q, r := m / n, m % n;
    if r + 1 < n {
      DivModUnique(m + 1, n, q, r + 1);
      DivModUnique(r + 1, n, 0, r + 1);
    } else {
      DivModUnique(m + 1, n, q + 1, 0);
      DivModUnique(r + 1, n, 1, 0);
    }
  }

  /**
   * Round robin by index: the k-th call of `next` returns position
   * `(k - 1) mod n` from the initial cursor -1, and position
   * `(start + k) mod n` from a cursor `start` inside the ring.
   */
  lemma {:induction false} RoundRobin(start: int, n: nat, k: nat)
    requires n > 0 && start < n && k >= 1
    ensures Position(start, n, k) == (if start < 0 then k - 1 else start + k) % n
  {
    if k > 1 {
      RoundRobin(start, n, k - 1);
      var m := if start < 0 then k - 2 else start + k - 1;
      ModSucc(m, n);
    }
  }

  lemma DivModSucc(m: nat, n: nat)
    requires n > 0
    ensures m % n + 1 < n ==> (m + 1) / n == m / n && (m + 1) % n == m % n + 1
    ensures m % n + 1 == n ==> (m + 1) / n == m / n + 1 && (m + 1) % n == 0
  {
    var q, r := m / n, m % n;
    if r + 1 < n {
      DivModUnique(m + 1, n, q, r + 1);
    } else {
      DivModUnique(m + 1, n, q + 1, 0);
    }
  }

  /**
   * Fairness: over `k` calls from the initial cursor -1, position `p` is
   * handed out `k / n` times, once more when `p < k mod n`; so every
   * position is returned the floor or the ceiling of `k / n` times.
   */
  lemma {:induction false} Fairness(n: nat, k: nat, p: int)
    requires n > 0 && 0 <= p < n
    ensures multiset(Visits(-1, n, k))[p] == k / n + (if p < k % n then 1 else 0)
  {
    if k > 0 {
      var m := k - 1;
      Fairness(n, m, p);
      RoundRobin(-1, n, k);
      assert Visits(-1, n, k) == Visits(-1, n, m) + [m % n];
      var before := multiset(Visits(-1, n, m))[p];
      assert multiset(Visits(-1, n, k))[p] == before + (if m % n == p then 1 else 0);
      DivModSucc(m, n);
      if m % n + 1 < n {
        assert k / n == m / n && k % n == m % n + 1;
      } else {
        assert k / n == m / n + 1 && k % n == 0;
      }
    }
  }

  /** Strictly increasing indices. */
  predicate Increasing(idx: seq<nat>) {
    forall i, j :: 0 <= i < j < |idx| ==> idx[i] < idx[j]
  }

  /** The positions whose probe succeeded, in ascending order. */
  function Survivors(responded: seq<bool>): (idx: seq<nat>)
    ensures Increasing(idx)
    ensures forall j :: 0 <= j < |idx| ==> idx[j] < |responded| && responded[idx[j]]
    ensures forall i :: 0 <= i < |responded| && responded[i] ==> i in idx
  {
    if responded == [] then []
    else
      var last := |responded| - 1;
      Survivors(responded[..last]) + (if responded[last] then [last] else [])
  }

  /** The servers `Test` keeps: those whose trial exchange returned no error, in ring order. */
  function Working(servers: seq<string>, responded: seq<bool>): (w: seq<string>)
    requires |responded| == |servers|
    ensures |w| <= |servers|
    ensures forall j :: 0 <= j < |w| ==> w[j] in servers
  {
    if servers == [] then []
    else
      var last := |servers| - 1;
      Working(servers[..last], responded[..last]) + (if responded[last] then [servers[last]] else [])
  }

  /**
   * The pruned list is the old list read at the surviving positions: a
   * subsequence holding exactly the servers that answered, in their order.
   */
  lemma {:induction false} WorkingAt(servers: seq<string>, responded: seq<bool>)
    requires |responded| == |servers|
    ensures |Working(servers, responded)| == |Survivors(responded)|
    ensures forall j :: 0 <= j < |Survivors(responded)| ==>
              Working(servers, responded)[j] == servers[Survivors(responded)[j]]
  {
    if servers != [] {
      var last := |servers| - 1;
      var (s', r') := (servers[..last], responded[..last]);
      WorkingAt(s', r');
      var w', v' := Working(s', r'), Survivors(r');
      assert Working(servers, responded) == w' + (if responded[last] then [servers[last]] else []);
      assert Survivors(responded) == v' + (if responded[last] then [last] else []);
      forall j | 0 <= j < |v'| ensures servers[v'[j]] == s'[v'[j]] {
      }
    }
  }

  /** The health-check exchanges: one per server, in ring order. */
  function ProbeQueries(servers: seq<string>): (qs: seq<Query>)
    ensures |qs| == |servers|
    ensures forall j :: 0 <= j < |servers| ==> qs[j] == QueryFor(ProbeDomain, servers[j])
  {
    seq(|servers|, j requires 0 <= j < |servers| => QueryFor(ProbeDomain, servers[j]))
  }

  /** The retry test: an exchange error whose text contains "i/o timeout". */
  predicate IsTimeout(o: ExchangeOutcome)
    ensures IsTimeout(o) ==> o.ExchangeError? && |IoTimeoutErrorMessage| <= |o.message|
  {
    o.ExchangeError? && Contains(o.message, IoTimeoutErrorMessage)
  }

  /** An error whose text has "i/o timeout" anywhere in it is a timeout; a reply never is. */
  lemma TimeoutMessage(before: string, after: string, rcode: int)
    ensures IsTimeout(ExchangeError(before + IoTimeoutErrorMessage + after))
    ensures !IsTimeout(Reply(rcode))
  {
    ContainsMiddle(before, IoTimeoutErrorMessage, after);
  }

  /** The position of the first outcome that is not a timeout, or `|outcomes|` if there is none. */
  function FirstSettled(outcomes: seq<ExchangeOutcome>): (k: nat)
    ensures k <= |outcomes|
    ensures forall j :: 0 <= j < k ==> IsTimeout(outcomes[j])
    ensures k < |outcomes| ==> !IsTimeout(outcomes[k])
  {
    if outcomes == [] || !IsTimeout(outcomes[0]) then 0
    else 1 + FirstSettled(outcomes[1..])
  }

  /** How many exchanges `Resolve` performs on `outcomes`. */
  function Exchanges(outcomes: seq<ExchangeOutcome>): (e: nat)
    ensures e <= |outcomes|
    ensures e == 0 <==> outcomes == []
  {
    var k := FirstSettled(outcomes);
    if k < |outcomes| then k + 1 else k
  }

  /** What `Resolve` returns on `outcomes`. */
  function Resolution(outcomes: seq<ExchangeOutcome>): (r: ResolveOutcome)
    ensures r.Failed? ==> !Contains(r.message, IoTimeoutErrorMessage)
    ensures outcomes == [] ==> r == Unfinished
  {
    var k := FirstSettled(outcomes);
    if k == |outcomes| then Unfinished
    else match outcomes[k]
      case Reply(rcode) => Response(rcode)
      case ExchangeError(message) => Failed(message)
  }

  /**
   * Retrying has no cap: as long as exchanges time out, `Resolve` goes on;
   * it ends with the first outcome that is not a timeout, a response being
   * returned whatever its Rcode.
   */
  lemma {:induction false} ResolutionCases(outcomes: seq<ExchangeOutcome>)
    ensures Resolution(outcomes) == Unfinished <==> forall j :: 0 <= j < |outcomes| ==> IsTimeout(outcomes[j])
    ensures Resolution(outcomes) == Unfinished ==> Exchanges(outcomes) == |outcomes|
    ensures forall k :: 0 <= k < |outcomes| && !IsTimeout(outcomes[k]) &&
                        (forall j :: 0 <= j < k ==> IsTimeout(outcomes[j])) ==>
              Exchanges(outcomes) == k + 1 &&
              Resolution(outcomes) == (if outcomes[k].Reply? then Response(outcomes[k].rcode) else Failed(outcomes[k].message))
  {
    var f := FirstSettled(outcomes);
    if f < |outcomes| {
      assert !IsTimeout(outcomes[f]);
    }
    forall k | 0 <= k < |outcomes| && !IsTimeout(outcomes[k]) && (forall j :: 0 <= j < k ==> IsTimeout(outcomes[j]))
      ensures f == k
    {
      if f < k {
        assert false;
      }
    }
  }

  /** The first outcome that is not a timeout, identified by position. */
  lemma {:induction false} SettledAt(outcomes: seq<ExchangeOutcome>, k: nat)
    requires k <= |outcomes| && forall j :: 0 <= j < k ==> IsTimeout(outcomes[j])
    requires k < |outcomes| ==> !IsTimeout(outcomes[k])
    ensures FirstSettled(outcomes) == k
    ensures Exchanges(outcomes) == if k < |outcomes| then k + 1 else k
  {
    if k > 0 {
      assert forall j :: 0 <= j < k - 1 ==> outcomes[1..][j] == outcomes[j + 1];
      SettledAt(outcomes[1..], k - 1);
    }
  }

  class DnsServerRing {
    var index: int
    var servers: seq<string>

    /** `DnsServerRing{index, servers}`; main.go starts its ring at cursor -1. */
    constructor (index: int, servers: seq<string>)
      ensures this.index == index && this.servers == servers
    {
      this.index := index;
      this.servers := servers;
    }

    /**
     * `next` / `Next`: advances the cursor one step round the ring and
     * returns the server it lands on; the server list is left as it is.
     */
    method Next() returns (server: string)
      requires |servers| > 0 && index < |servers|
      modifies this`index
      ensures servers == old(servers)
      ensures index == Advance(old(index), |servers|)
      ensures server == servers[index]
    {
      if index < 0 || index + 1 == |servers| {
        index := 0;
      } else {
        index := index + 1;
      }
      server := servers[index];
    }

    /**
     * `Test`: sends one trial exchange to every server in order (the
     * outcome of the one to position `i` is `responded[i]`), keeps exactly
     * those that answered, and fails when none did. The server list is
     * overwritten in both cases; the cursor is not touched.
     */
    method Test(responded: seq<bool>) returns (queries: seq<Query>, err: Option<TestError>)
      requires |responded| == |servers|
      modifies this`servers
      ensures queries == ProbeQueries(old(servers))
      ensures servers == Working(old(servers), responded)
      ensures err.Some? <==> servers == []
      ensures index == old(index)
    {
      var domain := ProbeDomain;
      var working := EmptySlice();
      queries := [];
      var k := 0;
      while k < |servers|
        invariant 0 <= k <= |servers| && servers == old(servers)
        invariant working.Valid() && fresh(working.buf)
        invariant working.Contents() == Working(servers[..k], responded[..k])
        invariant queries == ProbeQueries(servers[..k])
      {
        var server := servers[k];
        queries := queries + [QueryFor(domain, server)];
        if responded[k] {
          working := Append(working, [server]);
        }
        assert servers[..k + 1][..k] == servers[..k];
        assert responded[..k + 1][..k] == responded[..k];
        k := k + 1;
      }
      assert servers[..k] == servers;
      assert responded[..k] == responded;
      servers := working.Contents();
      if |servers| == 0 {
        err := Some(NoWorkingServers);
      } else {
        err := None;
      }
    }

    /**
     * `Resolve(domain)`: asks the next server of the ring, and on an error
     * whose text contains "i/o timeout" asks the next one again, without
     * limit; any other error fails, and a response is returned whatever its
     * Rcode. Exchange `j` (from 0) goes to the server at `Position(old(index), n, j + 1)`
     * and has outcome `outcomes[j]`.
     */
    method Resolve(domain: string, outcomes: seq<ExchangeOutcome>) returns (outcome: ResolveOutcome, queries: seq<Query>)
      requires |servers| > 0 && index < |servers|
      modifies this`index
      ensures servers == old(servers)
      ensures outcome == Resolution(outcomes)
      ensures |queries| == Exchanges(outcomes)
      ensures index == Position(old(index), |servers|, |queries|)
      ensures forall j :: 0 <= j < |queries| ==>
                queries[j] == QueryFor(domain, servers[Position(old(index), |servers|, j + 1)])
    {
      ghost var start := index;
      outcome := Unfinished;
      queries := [];
      var k := 0;
      while k < |outcomes|
        invariant 0 <= k <= |outcomes| && servers == old(servers)
        invariant forall j :: 0 <= j < k ==> IsTimeout(outcomes[j])
        invariant |queries| == k && index == Position(start, |servers|, k)
        invariant forall j :: 0 <= j < k ==>
                    queries[j] == QueryFor(domain, servers[Position(start, |servers|, j + 1)])
      {
        var server := Next();
        assert index == Position(start, |servers|, k + 1);
        queries := queries + [QueryFor(domain, server)];
        var o := outcomes[k];
        if o.ExchangeError? && Contains(o.message, IoTimeoutErrorMessage) {
          k := k + 1;
        } else {
          SettledAt(outcomes, k);
          if o.ExchangeError? {
            outcome := Failed(o.message);
          } else {
            // A non-success Rcode only draws a warning.
            outcome := Response(o.rcode);
          }
          return;
        }
      }
      SettledAt(outcomes, k);
    }
  }
}

=== FILE: slices.dfy ===
/**
 * utils.go: the hand-written `Append` that grows a Go slice of strings, and
 * the filtering loop of `readLinesFromStdin`, with standard input replaced
 * by the sequence of lines the reader hands back.
 */
module Slices {

  /**
   * A Go `[]string` whose first cell is the first cell of its backing array:
   * `len` cells in use, capacity `buf.Length`.
   */
  datatype Slice = Slice(buf: array<string>, len: nat)
  {
    predicate Valid() {
      len <= buf.Length
    }

    function Cap(): nat {
      buf.Length
    }

    /** The strings the slice holds. */
    function Contents(): seq<string>
      reads buf
      requires Valid()
    {
      buf[..len]
    }
  }

  /** The capacity `Append` allocates for `total` cells: half as much again, plus one. */
  function GrowCapacity(total: nat): (c: nat)
    ensures c == total + total / 2 + 1
    ensures c > total
  {
    total * 3 / 2 + 1
  }

  /** `[]string{}`: an empty slice with no capacity. */
  method EmptySlice() returns (s: Slice)
    ensures s.Valid() && fresh(s.buf) && s.Contents() == [] && s.Cap() == 0
  {
    var buf := new string[0];
    s := Slice(buf, 0);
  }

  /** Go's `copy(dst[at:], src)` when `dst[at:]` has room for all of `src`. */
  method CopyInto(dst: array<string>, at: nat, src: seq<string>)
    requires at + |src| <= dst.Length
    modifies dst
    ensures dst[..at] == old(dst[..at])
    ensures dst[at..at + |src|] == src
    ensures dst[at + |src|..] == old(dst[at + |src|..])
  {
    var k := 0;
    while k < |src|
      invariant 0 <= k <= |src|
      invariant forall j :: 0 <= j < at ==> dst[j] == old(dst[j])
      invariant forall j :: 0 <= j < k ==> dst[at + j] == src[j]
      invariant forall j :: at + k <= j < dst.Length ==> dst[j] == old(dst[j])
    {
      dst[at + k] := src[k];
      k := k + 1;
    }
  }

  /**
   * `Append(slice, elements...)`: the result holds the old contents followed
   * by `elements`. When they do not fit in the capacity, a fresh backing
   * array of `GrowCapacity(total)` cells receives them and the old one is
   * left alone; otherwise the old backing array is written in place from
   * index `len` on, and its cells outside the new elements keep their values.
   */
  method Append(slice: Slice, elements: seq<string>) returns (r: Slice)
    requires slice.Valid()
    modifies slice.buf
    ensures r.Valid() && r.len == slice.len + |elements|
    ensures r.Contents() == old(slice.Contents()) + elements
    ensures r.len > slice.Cap() ==>
              fresh(r.buf) && r.Cap() == GrowCapacity(r.len) && unchanged(slice.buf)
    ensures r.len <= slice.Cap() ==>
              r.buf == slice.buf && r.buf[r.len..] == old(slice.buf[r.len..])
  {
    var n := slice.len;
    var total := slice.len + |elements|;
    var s := slice;
    if total > s.Cap() {
      var newSize := total * 3 / 2 + 1;
      var newBuf := new string[newSize](_ => "");
      CopyInto(newBuf, 0, slice.buf[..n]);
      s := Slice(newBuf, total);
    }
    s := Slice(s.buf, total);
    CopyInto(s.buf, n, elements);
    assert s.buf[..total] == s.buf[..n] + s.buf[n..total];
    r := s;
  }

  /** What the reader keeps of one line: the callback's result, unless it is empty. */
  function KeepOne(lineStr: string): seq<string>
  {
    if |lineStr| > 0 then [lineStr] else []
  }

  /** The lines `readLinesFromStdin(fn)` returns for the raw lines `input`, in order. */
  function Kept(input: seq<string>, fn: string -> string): (r: seq<string>)
    ensures |r| <= |input|
    ensures forall j :: 0 <= j < |r| ==> r[j] != ""
  {
    if input == [] then []
    else Kept(input[..|input| - 1], fn) + KeepOne(fn(input[|input| - 1]))
  }

  /** Reading two stretches of input one after the other keeps each stretch's lines, in order. */
  lemma {:induction false} KeptAppend(a: seq<string>, b: seq<string>, fn: string -> string)
    ensures Kept(a + b, fn) == Kept(a, fn) + Kept(b, fn)
  {
    if b == [] {
      assert a + b == a;
    } else {
      var b', last := b[..|b| - 1], b[|b| - 1];
      KeptAppend(a, b', fn);
      assert b == b' + [last];
      assert a + b == (a + b') + [last];
      KeptSnoc(a + b', last, fn);
      KeptSnoc(b', last, fn);
      ConcatAssoc(Kept(a, fn), Kept(b', fn), KeepOne(fn(last)));
    }
  }

  lemma ConcatAssoc(x: seq<string>, y: seq<string>, z: seq<string>)
    ensures (x + y) + z == x + (y + z)
  {
  }

  /** One more raw line adds what that line keeps. */
  lemma KeptSnoc(s: seq<string>, x: string, fn: string -> string)
    ensures Kept(s + [x], fn) == Kept(s, fn) + KeepOne(fn(x))
  {
    assert (s + [x])[..|s|] == s;
  }

  /**
   * A string is among the lines read exactly when it is non-empty and the
   * callback produced it from some raw line.
   */
  lemma {:induction false} KeptMembership(input: seq<string>, fn: string -> string, x: string)
    ensures x in Kept(input, fn) <==> x != "" && exists l :: l in input && fn(l) == x
  {
    if input != [] {
      var init := input[..|input| - 1];
      var last := input[|input| - 1];
      KeptMembership(init, fn, x);
      assert input == init + [last];
      if x != "" && fn(last) == x {
        assert x in KeepOne(fn(last));
      }
      if x in Kept(input, fn) && x !in Kept(init, fn) {
        assert x in KeepOne(fn(last));
      }
      if l :| l in input && fn(l) == x {
        assert l in init || l == last;
      }
    }
  }

  /**
   * The filtering loop of `readLinesFromStdin`: applies `fn` to every raw
   * line and appends the non-empty results to a slice that starts empty.
   */
  method ReadLines(input: seq<string>, fn: string -> string) returns (lines: Slice)
    ensures lines.Valid() && lines.Contents() == Kept(input, fn)
  {
    lines := EmptySlice();
    var k := 0;
    while k < |input|
      invariant 0 <= k <= |input|
      invariant lines.Valid() && fresh(lines.buf)
      invariant lines.Contents() == Kept(input[..k], fn)
    {
      var lineStr := fn(input[k]);
      if |lineStr| > 0 {
        lines := Append(lines, [lineStr]);
      }
      assert input[..k + 1][..k] == input[..k];
      k := k + 1;
    }
    assert input[..k] == input;
  }
}

=== FILE: text.dfy ===
/**
 * The few pieces of Go's `strings` package that the resolver relies on:
 * `strings.Contains`, `strings.Split` on a one-character separator and
 * `strings.Join`, written out over `seq<char>`.
 */
module Text {

  /** `strings.Contains(s, t)`: `t` occurs in `s` at some offset. */
  predicate Contains(s: string, t: string)
  {
    exists i :: 0 <= i <= |s| && OccursAt(s, t, i)
  }

  /** A text with `t` in it, whatever comes before and after, contains `t`. */
  lemma ContainsMiddle(a: string, t: string, b: string)
    ensures Contains(a + t + b, t)
  {
    assert OccursAt(a + t + b, t, |a|);
  }

  /** `t` occurs in `s` starting at offset `i`. */
  predicate OccursAt(s: string, t: string, i: nat) {
    i + |t| <= |s| && s[i..i + |t|] == t
  }

  /** `strings.Split(s, string(sep))`: the pieces between separators, always at least one. */
  function Split(s: string, sep: char): (parts: seq<string>)
    ensures |parts| >= 1
    ensures forall k :: 0 <= k < |parts| ==> sep !in parts[k]
  {
    if |s| == 0 then [""]
    else
      var rest := Split(s[1..], sep);
      if s[0] == sep then [""] + rest
      else [[s[0]] + rest[0]] + rest[1..]
  }

  /**
   * `strings.Join(parts, sep)`: the parts with `sep` between neighbours;
   * no parts give the empty text, and otherwise the text starts with the
   * first part, followed by `sep` when more parts come.
   */
  function Join(parts: seq<string>, sep: string): (r: string)
    ensures parts == [] ==> r == ""
    ensures |parts| == 1 ==> r == parts[0]
    ensures |parts| > 1 ==> parts[0] + sep <= r
  {
    if |parts| == 0 then ""
    else if |parts| == 1 then parts[0]
    else parts[0] + sep + Join(parts[1..], sep)
  }

  /** Splitting and joining again on the same separator gives back the input. */
  lemma {:induction false} JoinSplit(s: string, sep: char)
    ensures Join(Split(s, sep), [sep]) == s
  {
    if |s| > 0 {
      var rest := Split(s[1..], sep);
      JoinSplit(s[1..], sep);
      if s[0] == sep {
        assert Split(s, sep) == [""] + rest;
        assert s == [sep] + s[1..];
      } else {
        var parts := Split(s, sep);
        assert parts == [[s[0]] + rest[0]] + rest[1..];
        if |rest| == 1 {
          assert s == [s[0]] + rest[0];
        } else {
          assert parts[1..] == rest[1..];
          assert Join(rest, [sep]) == rest[0] + [sep] + Join(rest[1..], [sep]);
          assert s == [s[0]] + s[1..];
        }
      }
    }
  }

  /** Splitting a separator-free text followed by more text: the first piece absorbs it. */
  lemma {:induction false} SplitPrefix(a: string, r: string, sep: char)
    requires sep !in a
    ensures Split(a + r, sep) == [a + Split(r, sep)[0]] + Split(r, sep)[1..]
  {
    if |a| > 0 {
      SplitPrefix(a[1..], r, sep);
      assert (a + r)[1..] == a[1..] + r;
      assert (a + r)[0] == a[0];
      assert [a[0]] + (a[1..] + Split(r, sep)[0]) == a + Split(r, sep)[0];
    } else {
      var parts := Split(r, sep);
      assert a + r == r;
      assert a + parts[0] == parts[0];
      assert [parts[0]] + parts[1..] == parts;
    }
  }

  /** Joining separator-free parts and splitting again gives back the parts. */
  lemma {:induction false} SplitJoin(parts: seq<string>, sep: char)
    requires |parts| >= 1
    requires forall k :: 0 <= k < |parts| ==> sep !in parts[k]
    ensures Split(Join(parts, [sep]), sep) == parts
  {
    if |parts| == 1 {
      SplitPrefix(parts[0], "", sep);
      assert parts[0] + "" == parts[0];
    } else {
      var tail := Join(parts[1..], [sep]);
      SplitJoin(parts[1..], sep);
      assert Join(parts, [sep]) == parts[0] + ([sep] + tail);
      SplitPrefix(parts[0], [sep] + tail, sep);
      assert ([sep] + tail)[1..] == tail;
      assert Split([sep] + tail, sep) == [""] + parts[1..];
      assert parts[0] + "" == parts[0];
    }
  }

  /** The pieces of a split are the separator-free runs: there is one more piece than separators. */
  lemma {:induction false} SplitCount(s: string, sep: char)
    ensures |Split(s, sep)| == 1 + multiset(s)[sep]
  {
    if |s| > 0 {
      SplitCount(s[1..], sep);
      assert s == [s[0]] + s[1..];
      assert multiset(s) == multiset([s[0]]) + multiset(s[1..]);
    }
  }
}

=== FILE: wrappers.dfy ===
/** Optional values, used for Go's nil-or-value results and error returns. */
module Wrappers {
  datatype Option<+T> = None | Some(value: T)
}
